=== FILE: README.md ===
# Collaborative drawing rooms: a Dafny model

This project models the core of a real-time collaborative drawing app. A
Node.js server relays strokes and chat between the members of numbered
rooms. The React Native clients keep a local canvas history, a chat panel,
a colour picker and a tool panel.

The main part is the room-state relay (`server/index.js`). It keeps an
in-memory table from room id to `{strokes, users, messages}` and handles one
socket event at a time. It is modelled as a pure step function
`Step(server, connection, event)` that returns the new state and a list of
outbound messages. Each message is tagged with who receives it: the sender
alone, the others in a room, or everyone in a room. The transport's own
room membership, which `check-room` consults, is kept as a separate map from
room id to a set of connections.

The client parts are pure state transitions and formatting rules:

- the canvas's stroke list, redo stack and remote previews;
- the colour picker's hex formatting, parsing and text-field normalisation;
- the chat list and its unread counter;
- the home screen's room-code filter and join routing;
- the room history's "time ago" labels;
- the toolbar's width stepper and swatch predicates;
- the drawing-tools panel's setting patches and indicator.

Files, one module each:

| file | module | models |
|---|---|---|
| protocol.dfy | Protocol | wire records (stroke, chat message), `Option`, JavaScript `\|\|` on strings |
| text.dfy | Text | ASCII case mapping, `trim`, decimal rendering of numbers |
| room_server.dfy | RoomServer | the server's room table, transport rooms, every socket handler, `Step` and `Run` |
| room_server_properties.dfy | RoomServerProperties | the state invariant, check-room's meaning, replay fidelity, the chat cap, fan-out |
| canvas_history.dfy | CanvasHistory | the canvas history: undo, redo, commit, fill, eyedropper, remote events |
| canvas_properties.dfy | CanvasProperties | undo/redo inverses, load round trip, live delivery equals late load |
| hex_color.dfy | HexColor | `rgbToHex`, `hexToRgb`, the hex field's change handler |
| chat.dfy | Chat | the chat overlay's state machine, badge and sender label |
| home_screen.dfy | HomeScreen | the room-code filter, create / create-VS / join, random room numbers |
| room_history.dfy | RoomHistory | `formatTime` and the resume route |
| tool_bar.dfy | ToolBar | the width clamps, preview dot, swatch selection and white detection |
| drawing_tools.dfy | DrawingTools | the tool settings, their patches, brush styles and the size indicator |

Modelling choices:

- A server connection exists from an explicit `Connect` event until
  `Disconnect`. The transport never reuses a socket id, so a disconnected id
  is retired for good.
- The `users` object of a room is an ordered list of (socket, identity)
  entries. JavaScript keeps string keys in insertion order, and
  `Object.values` lists the identities in that order in `room-users`.
- JavaScript's `undefined`, `null` and `""` are all modelled as the empty
  string wherever the code only tests them for truthiness (`userId ||
  socket.id`, `isEraser || false` with an `Option<bool>`).
- Skia paths are a type parameter. Converting a path to the wire's SVG
  text, parsing it back (which may fail) and hit-testing a tap are function
  parameters.
- Opacities are whole hundredths (0.7 is 70). The toolbar's preview dot is
  a `real`. Times are integer milliseconds.
- The random draw `Math.random()` is a fraction `num / den` with
  `num < den`. The server's answers to `check-room` and `check-vs-room`
  are inputs. `None` stands for an answer that never arrives.
- The room-code field has `maxLength={5}`. The text input cuts the text to
  five characters before the handler filters out non-digits.

Behaviour of the code that the model keeps as written:

- `disconnect` cleans up only the room the socket joined last. A socket that
  joined several rooms leaves a stale member entry in the earlier ones, and
  those records outlive their last connection
  (`RoomServerProperties.EarlierRoomKeepsStaleEntry`,
  `RoomServerProperties.TwoRoomsThenDisconnect`).
- `disconnect` tests `currentRoom` for truthiness. A socket that joined the
  room id `""` is therefore never cleaned out of it. The home screen never
  sends an empty room id.
- `draw-stroke`, `undo-stroke` and `send-message` to a room with no record
  still relay to the transport room.
- Fill is local only: a filled stroke is not sent to the server.
- Swatch selection is case-sensitive, but white detection is not
  (`ToolBar.LowercaseWhiteNotSelected`).

## Model

| member | source | states |
|---|---|---|
| RoomServer.Lookup | server/index.js:138 | a member map has an entry for exactly the sockets it lists |
| RoomServer.Put | server/index.js:49 | recording an identity sets this socket's entry only; a new socket goes to the end (key order), an existing one keeps its place; keys stay unique |
| RoomServer.Remove | server/index.js:139 | deleting an entry removes exactly that socket and keeps the others; the map becomes empty exactly when the socket was its only key |
| RoomServer.Ids | server/index.js:61 | `room-users` lists the identities in key order, one per entry |
| RoomServer.Author | server/index.js:79 | the stroke's author is the recorded identity when there is a non-empty one, else the socket id |
| RoomServer.HandleJoin | server/index.js:38-66 | the room is created empty only when absent; an existing room keeps its strokes and messages; the joiner's entry becomes `userId \|\| socket.id` and no other entry changes; the joiner enters the transport room; the joiner alone receives the stroke log, chat log and member list; the others receive `user-joined` |
| RoomServer.HandleGetCanvas | server/index.js:69-73 | state unchanged; the stroke log is sent back only when the room exists |
| RoomServer.HandleDrawStroke | server/index.js:76-87 | an existing room's log gains the stroke at the end, with `isEraser` defaulting to false; members and messages stay; an absent room changes nothing; the stroke is relayed to the others in every case |
| RoomServer.HandleDrawingMove | server/index.js:90-93 | the store is never changed; exactly one preview goes to the others, carrying the sent path, colour and width, the recorded identity (else the socket id) as author, and `isEraser` defaulting to false |
| RoomServer.HandleUndo | server/index.js:96-101 | a non-empty log loses exactly its last stroke; an empty or absent one is untouched; `undo-stroke` is relayed to the others either way |
| RoomServer.HandleClear | server/index.js:104-109 | only the stroke log is emptied; members and messages stay; the broadcast reaches everyone in the room, the sender included |
| RoomServer.KeepLast | server/index.js:118-120 | the log is cut to its last 100 entries, in order |
| RoomServer.AppendMessage | server/index.js:116-120 | the new message is last; the log never exceeds 100; earlier messages keep their order; below the cap nothing is dropped |
| RoomServer.HandleSendMessage | server/index.js:112-124 | an existing room's chat log gains the message under the cap, and nothing else in it changes; an absent room stores nothing; the message is relayed to the others |
| RoomServer.HandleCheckRoom | server/index.js:127-131 | the answer is true iff the record exists and the transport room is non-empty; nothing changes |
| RoomServer.HandleDisconnect | server/index.js:133-151 | the socket leaves every transport room; only its last joined room loses its entry, and that room is deleted exactly when the entry was its last; `user-left` goes out only for a non-empty identity; every other room is untouched |
| RoomServerProperties.InitialValid | server/index.js:26 | the empty server satisfies the invariant |
| RoomServerProperties.LogOnlyChangeKeepsValid | server/index.js:76-124 | handlers that only touch stroke and chat logs, and leave every chat log at 100 messages or fewer, keep the invariant |
| RoomServerProperties.LogEventKeepsValid | server/index.js:76-124 | `draw-stroke`, `undo-stroke`, `clear-canvas` and `send-message` from a connected socket keep the invariant |
| RoomServerProperties.ConnectKeepsValid | server/index.js:31-36 | a new connection keeps the invariant |
| RoomServerProperties.JoinKeepsRooms | server/index.js:44-49 | after a join every room record still has a member, with unique keys, and every entry belongs to a known socket |
| RoomServerProperties.JoinLiveMembers | server/index.js:39-49 | a join keeps every connected member inside its transport room, the joiner included |
| RoomServerProperties.JoinKeepsTransportSound | server/index.js:39-49 | after a join, transport rooms hold only connected sockets that are listed members |
| RoomServerProperties.JoinKeepsSessions | server/index.js:40 | after a join, each socket's current room exists and lists it |
| RoomServerProperties.JoinKeepsValid | server/index.js:38-66 | a join keeps the whole invariant |
| RoomServerProperties.DisconnectKeepsValid | server/index.js:133-151 | a disconnect keeps the invariant |
| RoomServerProperties.StepKeepsValid | server/index.js:31-152 | every event keeps the invariant |
| RoomServerProperties.RunKeepsValid | server/index.js:31-152 | any sequence of events keeps the invariant |
| RoomServerProperties.ReachableValid | server/index.js:26-152 | every reachable state has no memberless room record, transport rooms and member maps agree on connected sockets, and no room holds more than 100 chat messages |
| RoomServerProperties.CheckRoomIffLiveMember | server/index.js:127-131 | `check-room` says true exactly when the room lists a socket that is still connected |
| RoomServerProperties.RoomsHaveMembers | server/index.js:145-149 | a room record never exists without a member entry |
| RoomServerProperties.LastLeaveDeletesRoom | server/index.js:44-46 | after the last member disconnects, the record is gone, and the next joiner receives an empty stroke log and chat log |
| RoomServerProperties.JoinAbsentRoomIsEmpty | server/index.js:44-59 | joining a room with no record hands the joiner an empty stroke log and an empty chat log |
| RoomServerProperties.EarlierRoomKeepsStaleEntry | server/index.js:35-40 | a socket's entry in an earlier room survives its disconnect |
| RoomServerProperties.TwoJoins | server/index.js:38-53 | one socket joining two rooms is listed in both, in both transport rooms, with the second as its current room |
| RoomServerProperties.DisconnectFromSecond | server/index.js:133-151 | disconnecting from the second room deletes it, keeps the first with the stale entry, and empties the transport |
| RoomServerProperties.TwoRoomsThenDisconnect | server/index.js:31-151 | join "1", join "2", disconnect: room "1" keeps the stale entry and room "2" is deleted |
| RoomServerProperties.ReplayFidelity | server/index.js:76-87 | strokes drawn into an existing room are appended in arrival order, and nothing else changes |
| RoomServerProperties.LateJoinSeesLog | server/index.js:55 | a later joiner receives exactly the replayed log |
| RoomServerProperties.UndoOnEmptyLogIsNoOp | server/index.js:96-101 | undo on an empty log changes nothing and still relays |
| RoomServerProperties.DrawThenUndoRestores | server/index.js:76-101 | a stroke followed by an undo restores the room table |
| RoomServerProperties.KeepLastOfSuffix | server/index.js:118-120 | dropping older entries while at least 100 remain does not change the kept 100 |
| RoomServerProperties.LastOfLast | server/index.js:118-120 | trimming early and again later keeps the same last 100 |
| RoomServerProperties.AppendAllKeepsLast | server/index.js:112-124 | messages sent one by one leave exactly the last 100 of the whole sequence, in arrival order |
| RoomServerProperties.OneOverflow | server/index.js:118-120 | the 101st message pushes out exactly the oldest |
| RoomServerProperties.DrawStrokeReachesOthers | server/index.js:86 | a committed stroke reaches every other connected member of the room and not the sender |
| RoomServerProperties.ClearReachesEveryone | server/index.js:108 | a clear reaches every connected member, the sender included |
| RoomServerProperties.JoinAnnouncedToOthers | server/index.js:65 | `user-joined` reaches the members already in the room and not the joiner |
| CanvasHistory.Undo | components/DrawingCanvas.tsx:175-183 | an empty history is untouched and nothing is sent; otherwise the newest stroke moves to the redo stack and `undo-stroke` is sent once |
| CanvasHistory.Redo | components/DrawingCanvas.tsx:184-199 | an empty redo stack is a no-op; otherwise its top returns to the end of the history and is resent as `draw-stroke` |
| CanvasHistory.PanEnd | components/DrawingCanvas.tsx:404-482 | eyedropper mode and an empty gesture change nothing; a shape (never erasing) or a freehand stroke is appended, the redo stack is cleared and exactly one `draw-stroke` is sent |
| CanvasHistory.LocalClear | components/DrawingCanvas.tsx:202 | the toolbar's clear empties only the stroke list |
| CanvasHistory.TopmostHit | components/DrawingCanvas.tsx:294-297 | the search finds the highest-index stroke under the tap, or reports that none is there |
| CanvasHistory.Fill | components/DrawingCanvas.tsx:291-311 | the length is preserved; the topmost stroke under the tap (no later stroke contains the tap) gains the fill colour; every other stroke is untouched; with nothing under the tap nothing changes; nothing is sent |
| CanvasHistory.Eyedropper | components/DrawingCanvas.tsx:276-288 | a colour is picked exactly when some stroke is under the tap, and it is the colour of the topmost such stroke; the mode switches off only then |
| CanvasHistory.RemoteDraw | components/DrawingCanvas.tsx:485-504 | the sender's preview is deleted; a parseable stroke is appended; the redo stack is untouched |
| CanvasHistory.RemoteMove | components/DrawingCanvas.tsx:506-518 | this user's own previews are ignored; another sender's preview is replaced |
| CanvasHistory.RemoteUndo | components/DrawingCanvas.tsx:520-522 | the newest local stroke is dropped, or nothing happens on an empty list |
| CanvasHistory.Loaded | components/DrawingCanvas.tsx:526-529 | loading never yields more strokes than were sent; when every path parses, stroke k is the k-th sent stroke with its parsed path (the general case, dropped strokes included, is pinned by `CanvasProperties.LiveEqualsLoaded`) |
| CanvasHistory.LoadCanvas | components/DrawingCanvas.tsx:524-531 | a non-array payload is ignored; an array replaces the stroke list |
| CanvasHistory.RemoteClear | components/DrawingCanvas.tsx:538-541 | the stroke list and previews are emptied; the redo stack stays |
| CanvasProperties.UndoThenRedo | components/DrawingCanvas.tsx:175-199 | redo after undo restores history and redo stack and resends the stroke |
| CanvasProperties.RedoThenUndo | components/DrawingCanvas.tsx:175-199 | undo after redo restores the canvas |
| CanvasProperties.CommitThenUndo | components/DrawingCanvas.tsx:431-473 | after a commit, redo does nothing and undo takes back exactly that stroke |
| CanvasProperties.LoadRoundTrip | components/DrawingCanvas.tsx:524-531 | when every path survives the scaling round trip, loading a log and converting back reproduces it exactly |
| CanvasProperties.LiveEqualsLoaded | components/DrawingCanvas.tsx:485-531 | a member who saw strokes arrive live holds the same list as one who loaded the log afterwards |
| CanvasProperties.RemoteUndoMirrorsServer | components/DrawingCanvas.tsx:520-522 | a remote undo and the server's pop keep a mirrored log in step |
| CanvasProperties.TapsAgree | components/DrawingCanvas.tsx:276-311 | the eyedropper and fill act on the same stroke, the topmost under the tap; the eyedropper picks its colour, fill paints it, and with no stroke there fill changes nothing |
| CanvasProperties.FillThenUndo | components/DrawingCanvas.tsx:175-183 | fill adds no history entry: when the newest stroke was filled, undo removes it, fill included, and the redo stack holds the filled stroke |
| CanvasProperties.FillCommutesWithUndo | components/DrawingCanvas.tsx:175-183 | when the newest stroke is not under the tap, fill-then-undo and undo-then-fill leave the same strokes |
| CanvasProperties.MoveThenDrawLeavesNoPreview | components/DrawingCanvas.tsx:485-518 | once the sender's stroke arrives, the canvas is as if its preview had never been shown |
| CanvasProperties.ClearMirrorsServer | components/DrawingCanvas.tsx:538-541 | a consistency check, not a deep property: a live `clear-canvas` and a late load of the log the server cleared both leave no strokes |
| CanvasProperties.LocalClearKeepsPreviews | components/DrawingCanvas.tsx:202 | a consistency check, not a deep property: the toolbar clear is the remote clear except that previews stay |
| HexColor.HexString | components/SafeColorPicker.tsx:56 | `toString(16)` prints at least one digit |
| HexColor.ToHexByte | components/SafeColorPicker.tsx:56 | a byte prints as exactly two upper-case digits, high nibble first |
| HexColor.HexToRgb | components/SafeColorPicker.tsx:60-67 | the components are bytes; any text the pattern rejects gives black |
| HexColor.RgbToHexShape | components/SafeColorPicker.tsx:55-58 | byte components format as `#` and six upper-case hex digits |
| HexColor.RgbRoundTrip | components/SafeColorPicker.tsx:55-67 | parsing a formatted colour gives back the same components |
| HexColor.PairCanonical | components/SafeColorPicker.tsx:56-64 | a parsed digit pair prints back as the same digits, upper-cased |
| HexColor.HexCanonical | components/SafeColorPicker.tsx:55-67 | formatting a parsed colour gives `#` plus its six digits upper-cased |
| HexColor.UpperKeepsHex | components/SafeColorPicker.tsx:350 | upper-casing neither creates nor destroys hex digits |
| HexColor.NormalizeHexText | components/SafeColorPicker.tsx:349-356 | a text starting with `#` shows as its first 7 characters upper-cased; any other text shows as `#` followed by its first 6 characters upper-cased; so the display always starts with `#`, has 1 to 7 characters and no lower-case letter |
| HexColor.NormalizeIdempotent | components/SafeColorPicker.tsx:349-356 | normalising a normalised text changes nothing |
| HexColor.EditHex | components/SafeColorPicker.tsx:348-365 | the display always updates; the colour is applied exactly when the shown text is `#` and six hex digits |
| HexColor.AppliedColourIsCanonical | components/SafeColorPicker.tsx:359-364 | an applied colour equals the formatting of its own RGB value |
| HexColor.AppliedTexts | components/SafeColorPicker.tsx:348-365 | a typed text is applied exactly when it starts with six hex digits, with or without a leading `#` |
| Text.UpperIdempotent | components/SafeColorPicker.tsx:350 | upper-casing twice is upper-casing once |
| Text.TrimEmptyIff | components/ChatOverlay.tsx:184-188 | trimming yields the empty string exactly for all-whitespace text |
| Text.NatToStringRoundTrip | components/RoomHistoryOverlay.tsx:51-53 | the decimal text of a number reads back as that number |
| Text.NatToStringInjective | components/RoomHistoryOverlay.tsx:51-53 | different numbers render differently |
| Chat.Receive | components/ChatOverlay.tsx:146-155 | the message is appended after the existing ones; unread grows by one only while the panel is closed |
| Chat.LoadMessages | components/ChatOverlay.tsx:161-170 | an array replaces the list; anything else is ignored |
| Chat.Open | components/ChatOverlay.tsx:85-90 | opening resets unread to 0 and keeps the list |
| Chat.Close | components/ChatOverlay.tsx:236-240 | closing keeps the list and the counter |
| Chat.Type | components/ChatOverlay.tsx:411-414 | typing replaces the draft (state and ref alike) and leaves the list, the panel and the unread count alone |
| Chat.ChosenText | components/ChatOverlay.tsx:184-187 | Android reads the draft; other platforms read the passed text, else the draft |
| Chat.Send | components/ChatOverlay.tsx:181-223 | blank text sends and appends nothing; otherwise the trimmed text is emitted once and the same message is appended; the draft is cleared |
| Chat.SendIffNotBlank | components/ChatOverlay.tsx:184-209 | a message goes out exactly when the text has a non-whitespace character, and it is the one appended last |
| Chat.SentTextIsTrimmed | components/ChatOverlay.tsx:184-187 | a sent message is non-empty and neither starts nor ends with whitespace |
| Chat.Badge | components/ChatOverlay.tsx:303-307 | the badge is hidden exactly at 0, reads `9+` above 9, and otherwise is the one digit whose value is the count |
| Chat.SenderLabel | components/ChatOverlay.tsx:382 | the label is the longest prefix without a hyphen; the id continues with `-` right after it |
| Chat.SenderLabelWhole | components/ChatOverlay.tsx:382 | an id without a hyphen is its own label |
| Chat.OpenMeansReadKept | components/ChatOverlay.tsx:85-155 | an open panel never shows an unread count, after any sequence of events |
| Chat.ClosedPanelCountsArrivals | components/ChatOverlay.tsx:145-155 | while the panel stays closed, unread grows by exactly the number of arrivals |
| Chat.ListOnlyGrows | components/ChatOverlay.tsx:145-209 | without a load, the message list only grows at the end |
| HomeScreen.KeepDigits | app/index.tsx:191 | the filter keeps only digits and keeps an all-digit text whole |
| HomeScreen.KeepDigitsSingle | app/index.tsx:191 | a single character is kept exactly when it is a digit |
| HomeScreen.KeepDigitsAppend | app/index.tsx:191 | filtering a concatenation filters each part and concatenates, so kept digits stay in their order; with the single-character case this fixes the filter on every text |
| HomeScreen.KeepDigitsCounts | app/index.tsx:191 | every digit of the input survives and every other character is dropped |
| HomeScreen.FilterRoomCode | app/index.tsx:191-197 | the new code is at most 5 characters, all digits; it holds each digit exactly as often as the first 5 typed characters do and nothing else, and an all-digit entry of up to 5 characters is kept as typed |
| HomeScreen.FilterRoomCodeIdempotent | app/index.tsx:191-197 | filtering a code already in the field changes nothing |
| HomeScreen.RoomNumber | app/index.tsx:68 | a generated room number lies in 10000..99999 |
| HomeScreen.RoomNumberOnto | app/index.tsx:68 | every number in that range can be drawn |
| HomeScreen.FiveDigits | app/index.tsx:68 | such a number prints as five digits |
| HomeScreen.NewRoomId | app/index.tsx:68 | a new room id is five digits that read back as the drawn number and pass the room-code filter |
| HomeScreen.CreateSession | app/index.tsx:62-71 | an empty name only shows an error; otherwise the new room is saved to history and opened under that name |
| HomeScreen.CreateVsSession | app/index.tsx:110-118 | an empty name only shows an error; otherwise a VS room with time limit "90" is opened and not saved |
| HomeScreen.JoinSession | app/index.tsx:73-108 | without both fields only an error shows and nothing is sent; `check-room` goes first; a true answer opens and saves the room and never asks about VS rooms; after a false answer, `check-vs-room` true opens the VS room unsaved and false shows ROOM NOT FOUND |
| HomeScreen.ServerAnswer | server/index.js:127-131 | the relay answers true exactly when the room has a connected member |
| HomeScreen.JoinOpensLiveRoom | app/index.tsx:87-94 | against the relay, a join opens the drawing room exactly when it has a connected member |
| HomeScreen.CreatedRoomCanBeJoined | app/index.tsx:62-108 | a created room's code passes the room-code field unchanged, and a join answered live opens and saves the same room |
| HomeScreen.CreatedVsRoomCanBeJoined | app/index.tsx:73-118 | a created VS room is reached by joining its code when the server knows it only as a VS room, unsaved in both cases |
| RoomHistory.FormatTime | components/RoomHistoryOverlay.tsx:42-55 | the buckets are exclusive and exhaustive: under a minute (negative included) is just now, then minutes below an hour, hours below a day, days below a week, else the date; each count is the whole units elapsed |
| RoomHistory.RenderTime | components/RoomHistoryOverlay.tsx:50-54 | each label prints as its decimal count followed by its unit suffix |
| RoomHistory.FormatTimeMonotone | components/RoomHistoryOverlay.tsx:42-55 | a later visit never falls into an older bucket |
| RoomHistory.MinutesMonotone | components/RoomHistoryOverlay.tsx:46-51 | a later visit never shows more minutes |
| RoomHistory.RenderInjective | components/RoomHistoryOverlay.tsx:50-53 | different relative labels never print the same text |
| RoomHistory.Resume | components/RoomHistoryOverlay.tsx:29-35 | resuming opens the saved room under the typed name, or the saved name when none is typed |
| RoomHistory.SavedRoomResumes | components/RoomHistoryOverlay.tsx:29-35 | resuming a room saved by a join, with no name typed, opens the route the join opened |
| RoomHistory.CreatedRoomResumes | components/RoomHistoryOverlay.tsx:29-35 | resuming a room saved by creating it, with no name typed, opens the route creation opened |
| ToolBar.Minus | components/ToolBar.tsx:145 | minus steps down by exactly 3 while that stays at or above 2, and otherwise lands exactly on 2 |
| ToolBar.Plus | components/ToolBar.tsx:158 | plus steps up by exactly 3 while that stays at or below 30, and otherwise lands exactly on 30 |
| ToolBar.PressesStayInRange | components/ToolBar.tsx:145-158 | from a width in [2, 30], any sequence of presses stays in [2, 30] |
| ToolBar.PlusThenMinus | components/ToolBar.tsx:145-158 | minus undoes plus away from the limits |
| ToolBar.PreviewDot | components/ToolBar.tsx:150-154 | the dot never exceeds 24 and is 1.5 times the width up to width 16 |
| ToolBar.PreviewDotMonotone | components/ToolBar.tsx:150-154 | a wider stroke never shows a smaller dot |
| ToolBar.AtMostOneSelected | components/ToolBar.tsx:199-206 | with distinct swatches, at most one is highlighted |
| ToolBar.IsWhiteIff | components/ToolBar.tsx:69 | white is `#` and six `f`s in either case |
| ToolBar.PlusIconColor | components/ToolBar.tsx:212 | the plus icon is black exactly on a white selection |
| ToolBar.LowercaseWhiteNotSelected | components/ToolBar.tsx:69-203 | `#ffffff` counts as white but does not highlight the `#FFFFFF` swatch |
| ToolBar.HexFieldSelectsWhiteSwatch | components/ToolBar.tsx:113-203 | typing `ffffff` into the picker applies exactly the white swatch's string |
| DrawingTools.ApplyPatch | components/DrawingTools.tsx:67 | the room screen merges each partial update as `{ ...prev, ...updates }` (app/room/[id].tsx, line 308): each field the update carries wins; each absent one keeps its old value |
| DrawingTools.ApplyThen | components/DrawingTools.tsx:67 | two updates in turn equal their merge applied once |
| DrawingTools.ApplyIdempotent | components/DrawingTools.tsx:67 | sending the same update twice changes nothing the second time |
| DrawingTools.ToolSelect | components/DrawingTools.tsx:81-84 | tool selection changes only the current tool |
| DrawingTools.BrushSelect | components/DrawingTools.tsx:86-89 | brush selection changes only the brush type and switches to the brush tool |
| DrawingTools.ShapeSelect | components/DrawingTools.tsx:91-94 | shape selection changes only the shape type and switches to the shape tool |
| DrawingTools.BrushConfigs | components/DrawingTools.tsx:33-61 | only the marker is translucent, at exactly 70%; the others are opaque |
| DrawingTools.BrushConfigsDistinct | components/DrawingTools.tsx:33-61 | no two brushes share a style |
| DrawingTools.SizeIndicator | components/DrawingTools.tsx:202-203 | the dot shows the eraser's size iff the eraser is active, else the brush size, capped at 30 |
| DrawingTools.IndicatorOpacity | components/DrawingTools.tsx:205 | the dot uses the brush's opacity only with the brush tool, else full opacity |
| DrawingTools.IndicatorColor | components/DrawingTools.tsx:204 | the dot is grey for the eraser, else the selected colour |
| DrawingTools.CanvasPen | components/DrawingTools.tsx:202-205 | the room screen (app/room/[id].tsx, lines 241-244) hands the canvas an eraser flag set exactly for the eraser tool, the eraser size for the eraser and the brush size otherwise, the selected colour and the chosen brush's config |
| DrawingTools.IndicatorMatchesPen | components/DrawingTools.tsx:202-204 | the indicator previews the pen the canvas draws with: grey exactly for the eraser, else its colour; its width up to the cap of 30 |
| DrawingTools.BrushSelectShowsBrush | components/DrawingTools.tsx:141-165 | after picking a brush, only the brush row shows and the dot takes that brush's opacity |
| DrawingTools.ShapeSelectShowsShape | components/DrawingTools.tsx:141-205 | after picking a shape, only the shape row shows, at full opacity, and the brush is kept |
| DrawingTools.PanelKeepsSizes | components/DrawingTools.tsx:81-134 | panel presses never change the sizes or the opacity, and never select the eraser |

## Left out

- Server transport and hosting: the HTTP endpoints, CORS, `listen` and console logging (server/index.js:1-23, 154-157) are I/O. socket.io rooms are a membership map. Each socket's own-id room is left out because no handler addresses it.
- The server's `currentUserId` variable (server/index.js:36, 41) is written but never read, so it has no counterpart.
- VS mode and the shared reference image have no server handler in this source. `check-vs-room` appears only as an emitted request, with its answer as an input.
- Skia geometry: shape construction, SVG scaling to the 1000x1000 virtual canvas, `contains` hit tests, smoothing and jump filtering are float maths in a native library. They are function parameters or absent.
- Live `drawing-move` emission during a pan, and `get-canvas` sent when the canvas becomes ready (components/DrawingCanvas.tsx:544-546), are not modelled on the client side. The server handles both events.
- Canvas export (view capture, media library, sharing) is I/O.
- Colour-space maths (`hsvToRgb`, `rgbToHsl`, touch-to-HSV) is floating point. The hex field's `setHsl` update is left out with it.
- HexColor.HexToRgb: components above 255 are not modelled for `rgbToHex`'s inverse. The round trip is stated for byte components only, which is what the picker produces.
- Text.Upper and Text.Lower map ASCII letters only. JavaScript's full Unicode case mapping (for example `ß` to `SS`) is left out; hex digits and `#ffffff` are ASCII.
- Timers, haptics, keyboard layout, drag clamping and navigation are left out. Navigation, the toast and saving to history are output values. The 3-second reply timeout becomes an answer that never arrives.
- The chat draft reference (`textRef`) is kept equal to the draft state, as both writers keep it, and is not modelled separately. Clearing the draft after a 10 ms delay on Android is modelled as immediate.
- Message ids (`Math.random().toString()`) are list keys for rendering and are not modelled.
- Persistence (`saveRoomToHistory`, `getRoomHistory`) lives in a service file that is not part of this model. `toLocaleDateString` is locale-dependent and is a parameter.
- Object key order in `room-users` follows insertion order. JavaScript lists integer-like keys first, but socket ids are never integer-like.
- Room ids that name properties every JavaScript object inherits (`constructor`, `toString`, `__proto__`) are left out. For them `rooms[roomId]` is already truthy, so `join-room` creates no record and then fails on the missing `users` (server/index.js:44-49). The model creates the room as for any other id. The home screen only sends digit codes.
- The `services/socket.ts` wrapper and the presentation and animation components are out of scope.

=== FILE: canvas_history.dfy ===
/**
  The drawing canvas's local history: the list of strokes on screen, the redo
  stack, and the live previews of other users, with the local gestures (undo,
  redo, committing a stroke, fill, eyedropper) and the handlers for events
  relayed by the server. Skia paths are the type parameter `P`; converting a
  path to the wire's SVG text (`normalize`), parsing SVG text back
  (`toLocal`, which may fail) and hit-testing a tap (`contains`) are
  parameters, because they are float geometry in a native library.
 */
module CanvasHistory {
  import opened Protocol

  datatype StrokeCap = RoundCap | ButtCap | SquareCap
  datatype StrokeJoin = RoundJoin | BevelJoin | MiterJoin

  /** A brush style; `opacity` in hundredths (1.0 is 100). */
  datatype BrushConfig = BrushConfig(strokeCap: StrokeCap, strokeJoin: StrokeJoin, opacity: nat)

  /** A stroke as the canvas keeps it. */
  datatype LocalStroke<P> = LocalStroke(
    path: P, color: string, strokeWidth: int, userId: string, isEraser: bool,
    brush: Option<BrushConfig>, fillColor: Option<string>)

  /** Another user's stroke in progress. */
  datatype Preview<P> = Preview(path: P, color: string, strokeWidth: int, isEraser: bool)

  datatype Canvas<P> = Canvas(paths: seq<LocalStroke<P>>, redo: seq<LocalStroke<P>>, remote: map<string, Preview<P>>)

  /** What the canvas sends to the server. */
  datatype Emit =
    | EmitUndo(roomId: string)
    | EmitDraw(roomId: string, path: string, color: string, strokeWidth: int, isEraser: bool)

  datatype Change<P> = Change(canvas: Canvas<P>, emits: seq<Emit>)

  // ---------------------------------------------------------------------------
  // Local undo / redo / commit
  // ---------------------------------------------------------------------------

  /** The toolbar's undo: move the newest stroke onto the redo stack. */
  function Undo<P>(cv: Canvas<P>, roomId: string): (r: Change<P>)
    ensures cv.paths == [] ==> r == Change(cv, [])
    ensures cv.paths != [] ==>
              && r.canvas.paths + [Last(cv.paths)] == cv.paths
              && r.canvas.redo == cv.redo + [Last(cv.paths)]
              && r.canvas.remote == cv.remote
              && r.emits == [EmitUndo(roomId)]
  {
    if cv.paths == [] then Change(cv, [])
    else
      var last := Last(cv.paths);
      Change(cv.(paths := DropLast(cv.paths), redo := cv.redo + [last]), [EmitUndo(roomId)])
  }

  /** The wire form of a local stroke (`isEraser || false` is the boolean itself). */
  function DrawEmit<P>(roomId: string, st: LocalStroke<P>, normalize: P -> string): Emit
  {
    EmitDraw(roomId, normalize(st.path), st.color, st.strokeWidth, st.isEraser)
  }

  /** The toolbar's redo: move the top of the redo stack back and resend it. */
  function Redo<P>(cv: Canvas<P>, roomId: string, normalize: P -> string): (r: Change<P>)
    ensures cv.redo == [] ==> r == Change(cv, [])
    ensures cv.redo != [] ==>
              && r.canvas.paths == cv.paths + [Last(cv.redo)]
              && r.canvas.redo + [Last(cv.redo)] == cv.redo
              && r.canvas.remote == cv.remote
              && r.emits == [EmitDraw(roomId, normalize(Last(cv.redo).path), Last(cv.redo).color,
                                      Last(cv.redo).strokeWidth, Last(cv.redo).isEraser)]
  {
    if cv.redo == [] then Change(cv, [])
    else
      var last := Last(cv.redo);
      Change(cv.(paths := cv.paths + [last], redo := DropLast(cv.redo)), [DrawEmit(roomId, last, normalize)])
  }

  /** The pen state a finished gesture is committed with. */
  datatype Pen = Pen(color: string, strokeWidth: int, isEraser: bool, brush: BrushConfig)

  /**
    What the finished gesture built: a shape (shape mode with a start point;
    the shape constructor never fails for a real shape), a freehand path, or
    nothing (no path was started).
   */
  datatype Gesture<P> = NoGesture | ShapeGesture(shape: P) | FreehandGesture(freehand: P)

  /**
    Release of a touch: in eyedropper mode nothing happens; otherwise a shape
    is committed as a non-eraser stroke and a freehand path with the pen's
    eraser flag; a commit clears the redo stack and sends one `draw-stroke`.
   */
  function PanEnd<P>(cv: Canvas<P>, roomId: string, userId: string, eyedropper: bool,
                     g: Gesture<P>, pen: Pen, normalize: P -> string): (r: Change<P>)
    ensures eyedropper || g.NoGesture? ==> r == Change(cv, [])
    ensures !eyedropper && !g.NoGesture? ==>
              var p := if g.ShapeGesture? then g.shape else g.freehand;
              var erase := g.FreehandGesture? && pen.isEraser;
              && r.canvas.paths == cv.paths + [LocalStroke(p, pen.color, pen.strokeWidth, userId, erase, Some(pen.brush), None)]
              && r.canvas.redo == []
              && r.canvas.remote == cv.remote
              && r.emits == [EmitDraw(roomId, normalize(p), pen.color, pen.strokeWidth, erase)]
  {
    if eyedropper then Change(cv, [])
    else match g
      case NoGesture => Change(cv, [])
      case ShapeGesture(p) => Commit(cv, roomId, LocalStroke(p, pen.color, pen.strokeWidth, userId, false, Some(pen.brush), None), normalize)
      case FreehandGesture(p) => Commit(cv, roomId, LocalStroke(p, pen.color, pen.strokeWidth, userId, pen.isEraser, Some(pen.brush), None), normalize)
  }

  function Commit<P>(cv: Canvas<P>, roomId: string, st: LocalStroke<P>, normalize: P -> string): Change<P>
  {
    Change(cv.(paths := cv.paths + [st], redo := []), [DrawEmit(roomId, st, normalize)])
  }

  /** The toolbar's clear: only the local stroke list is emptied. */
  function LocalClear<P>(cv: Canvas<P>): (r: Canvas<P>)
    ensures r.paths == [] && r.redo == cv.redo && r.remote == cv.remote
  {
    cv.(paths := [])
  }

  // ---------------------------------------------------------------------------
  // Taps: fill and eyedropper
  // ---------------------------------------------------------------------------

  /** The topmost stroke (highest index) whose path contains the tap, searching downwards. */
  function TopmostHit<P>(paths: seq<LocalStroke<P>>, contains: P -> bool, n: nat): (r: Option<nat>)
    requires n <= |paths|
    ensures r.Some? ==> r.value < n && contains(paths[r.value].path)
                        && forall j :: r.value < j < n ==> !contains(paths[j].path)
    ensures r.None? ==> forall j :: 0 <= j < n ==> !contains(paths[j].path)
    decreases n
  {
    if n == 0 then None
    else if contains(paths[n - 1].path) then Some(n - 1)
    else TopmostHit(paths, contains, n - 1)
  }

  /**
    A tap in fill mode: the topmost stroke under the tap gets the current
    colour as its fill; nothing else changes and nothing is sent.
   */
  function Fill<P>(cv: Canvas<P>, contains: P -> bool, color: string): (r: Canvas<P>)
    ensures |r.paths| == |cv.paths| && r.redo == cv.redo && r.remote == cv.remote
    ensures forall j :: 0 <= j < |cv.paths| && !contains(cv.paths[j].path) ==> r.paths[j] == cv.paths[j]
    ensures forall j :: 0 <= j < |cv.paths| && r.paths[j] != cv.paths[j] ==>
              && r.paths[j] == cv.paths[j].(fillColor := Some(color))
              && forall k :: j < k < |cv.paths| ==> !contains(cv.paths[k].path)
    ensures forall i :: 0 <= i < |cv.paths| && contains(cv.paths[i].path)
                          && (forall k :: i < k < |cv.paths| ==> !contains(cv.paths[k].path)) ==>
              r.paths[i] == cv.paths[i].(fillColor := Some(color))
  {
    match TopmostHit(cv.paths, contains, |cv.paths|)
    case None => cv
    case Some(i) =>
      cv.(paths := seq(|cv.paths|, j requires 0 <= j < |cv.paths| =>
                         if j == i then cv.paths[i].(fillColor := Some(color)) else cv.paths[j]))
  }

  /**
    A tap in eyedropper mode: the colour of the topmost stroke under the tap
    is picked and the mode switches off; with no stroke there, nothing happens.
   */
  function Eyedropper<P>(paths: seq<LocalStroke<P>>, contains: P -> bool): (r: (Option<string>, bool))
    ensures r.0.Some? <==> exists j :: 0 <= j < |paths| && contains(paths[j].path)
    ensures r.1 <==> r.0.None?
    ensures r.0.Some? ==> exists j :: && 0 <= j < |paths| && contains(paths[j].path) && paths[j].color == r.0.value
                                       && forall k :: j < k < |paths| ==> !contains(paths[k].path)
  {
    match TopmostHit(paths, contains, |paths|)
    case None => (None, true)
    case Some(i) => (Some(paths[i].color), false)
  }

  // ---------------------------------------------------------------------------
  // Events relayed by the server
  // ---------------------------------------------------------------------------

  function FromWire<P>(w: Stroke, p: P): LocalStroke<P>
  {
    LocalStroke(p, w.color, w.strokeWidth, w.userId, w.isEraser, None, None)
  }

  /**
    `draw-stroke` from another user: its preview goes away and, when the SVG
    text parses, the stroke is appended. The redo stack is untouched.
   */
  function RemoteDraw<P>(cv: Canvas<P>, w: Stroke, toLocal: string -> Option<P>): (r: Canvas<P>)
    ensures r.remote == cv.remote - {w.userId} && r.redo == cv.redo
    ensures toLocal(w.path).Some? ==> r.paths == cv.paths + [FromWire(w, toLocal(w.path).value)]
    ensures toLocal(w.path).None? ==> r.paths == cv.paths
  {
    var paths := match toLocal(w.path)
      case Some(p) => cv.paths + [FromWire(w, p)]
      case None => cv.paths;
    cv.(paths := paths, remote := cv.remote - {w.userId})
  }

  /** `drawing-move`: the sender's preview is replaced, unless the sender is this user. */
  function RemoteMove<P>(cv: Canvas<P>, w: Stroke, localUser: string, toLocal: string -> Option<P>): (r: Canvas<P>)
    ensures r.paths == cv.paths && r.redo == cv.redo
    ensures w.userId == localUser || toLocal(w.path).None? ==> r == cv
    ensures w.userId != localUser && toLocal(w.path).Some? ==>
              r.remote == cv.remote[w.userId := Preview(toLocal(w.path).value, w.color, w.strokeWidth, w.isEraser)]
  {
    if w.userId == localUser then cv
    else match toLocal(w.path)
      case None => cv
      case Some(p) => cv.(remote := cv.remote[w.userId := Preview(p, w.color, w.strokeWidth, w.isEraser)])
  }

  /** `undo-stroke` from another user: drop the newest local stroke, if any. */
  function RemoteUndo<P>(cv: Canvas<P>): (r: Canvas<P>)
    ensures cv.paths == [] ==> r == cv
    ensures cv.paths != [] ==> r.paths + [Last(cv.paths)] == cv.paths
    ensures r.redo == cv.redo && r.remote == cv.remote
  {
    if cv.paths == [] then cv else cv.(paths := DropLast(cv.paths))
  }

  /** The strokes of a `load-canvas` payload whose SVG text parses, in order. */
  function Loaded<P>(ws: seq<Stroke>, toLocal: string -> Option<P>): (r: seq<LocalStroke<P>>)
    ensures |r| <= |ws|
    ensures (forall k :: 0 <= k < |ws| ==> toLocal(ws[k].path).Some?) ==>
              && |r| == |ws|
              && forall k :: 0 <= k < |ws| ==> r[k] == FromWire(ws[k], toLocal(ws[k].path).value)
  {
    if ws == [] then []
    else
      var rest := Loaded(ws[1..], toLocal);
      match toLocal(ws[0].path)
      case Some(p) => [FromWire(ws[0], p)] + rest
      case None => rest
  }

  /**
    `load-canvas`: a payload that is not an array (`None`) is ignored; an
    array replaces the stroke list. Redo stack and previews stay.
   */
  function LoadCanvas<P>(cv: Canvas<P>, payload: Option<seq<Stroke>>, toLocal: string -> Option<P>): (r: Canvas<P>)
    ensures payload.None? ==> r == cv
    ensures payload.Some? ==> r.paths == Loaded(payload.value, toLocal) && r.redo == cv.redo && r.remote == cv.remote
  {
    match payload
    case None => cv
    case Some(ws) => cv.(paths := Loaded(ws, toLocal))
  }

  /** `clear-canvas`: strokes and previews are emptied; the redo stack stays. */
  function RemoteClear<P>(cv: Canvas<P>): (r: Canvas<P>)
    ensures r.paths == [] && r.remote == map[] && r.redo == cv.redo
  {
    cv.(paths := [], remote := map[])
  }
}

=== FILE: canvas_properties.dfy ===
/**
  Properties of the canvas history: undo and redo invert each other, a
  commit clears the redo stack, and the strokes a long-present member
  receives one by one equal what a late joiner loads at once.
 */
module CanvasProperties {
  import opened Protocol
  import opened CanvasHistory
  import RoomServer

  /** Redo undoes an undo: the history and the redo stack are restored. */
  lemma UndoThenRedo<P>(cv: Canvas<P>, roomId: string, normalize: P -> string)
    requires cv.paths != []
    ensures Redo(Undo(cv, roomId).canvas, roomId, normalize).canvas == cv
    ensures Redo(Undo(cv, roomId).canvas, roomId, normalize).emits ==
            [DrawEmit(roomId, Last(cv.paths), normalize)]
  {
    var u := Undo(cv, roomId).canvas;
    assert Last(u.redo) == Last(cv.paths);
    assert DropLast(u.redo) == cv.redo;
  }

  /** Undo undoes a redo. */
  lemma RedoThenUndo<P>(cv: Canvas<P>, roomId: string, normalize: P -> string)
    requires cv.redo != []
    ensures Undo(Redo(cv, roomId, normalize).canvas, roomId).canvas == cv
    ensures Undo(Redo(cv, roomId, normalize).canvas, roomId).emits == [EmitUndo(roomId)]
  {
    var r := Redo(cv, roomId, normalize).canvas;
    assert Last(r.paths) == Last(cv.redo);
    assert DropLast(r.paths) == cv.paths;
  }

  /** After a committed stroke there is nothing to redo, and undo takes that stroke back. */
  lemma CommitThenUndo<P>(cv: Canvas<P>, roomId: string, userId: string, g: Gesture<P>, pen: Pen, normalize: P -> string)
    requires !g.NoGesture?
    ensures var c := PanEnd(cv, roomId, userId, false, g, pen, normalize).canvas;
            && Redo(c, roomId, normalize) == Change(c, [])
            && Undo(c, roomId).canvas.paths == cv.paths
            && |Undo(c, roomId).canvas.redo| == 1
  {
    var c := PanEnd(cv, roomId, userId, false, g, pen, normalize).canvas;
    assert DropLast(c.paths) == cv.paths;
  }

  /** The wire form of a stroke the canvas holds. */
  function ToWire<P>(st: LocalStroke<P>, normalize: P -> string): Stroke
  {
    Stroke(normalize(st.path), st.color, st.strokeWidth, st.userId, st.isEraser)
  }

  function AllToWire<P>(ls: seq<LocalStroke<P>>, normalize: P -> string): (r: seq<Stroke>)
    ensures |r| == |ls|
  {
    seq(|ls|, k requires 0 <= k < |ls| => ToWire(ls[k], normalize))
  }

  /** Parsing then re-normalising gives back every path of the payload. */
  ghost predicate Reversible<P>(ws: seq<Stroke>, toLocal: string -> Option<P>, normalize: P -> string)
  {
    forall k :: 0 <= k < |ws| ==> toLocal(ws[k].path).Some? && normalize(toLocal(ws[k].path).value) == ws[k].path
  }

  /**
    When every path survives the scaling round trip, loading a payload and
    sending its strokes back reproduces the payload exactly, in order.
   */
  lemma {:induction false} LoadRoundTrip<P>(ws: seq<Stroke>, toLocal: string -> Option<P>, normalize: P -> string)
    requires Reversible(ws, toLocal, normalize)
    ensures AllToWire(Loaded(ws, toLocal), normalize) == ws
    decreases |ws|
  {
    if ws != [] {
      assert Reversible(ws[1..], toLocal, normalize) by {
        forall k | 0 <= k < |ws| - 1
          ensures ws[1..][k] == ws[k + 1]
        {
        }
      }
      LoadRoundTrip(ws[1..], toLocal, normalize);
      var p := toLocal(ws[0].path).value;
      assert Loaded(ws, toLocal) == [FromWire(ws[0], p)] + Loaded(ws[1..], toLocal);
    }
  }

  /** Live `draw-stroke` events, applied one by one. */
  function RemoteDrawAll<P>(cv: Canvas<P>, ws: seq<Stroke>, toLocal: string -> Option<P>): Canvas<P>
    decreases |ws|
  {
    if ws == [] then cv else RemoteDrawAll(RemoteDraw(cv, ws[0], toLocal), ws[1..], toLocal)
  }

  /**
    A member who saw the strokes arrive live holds the same list as one who
    loaded the stored log afterwards.
   */
  lemma {:induction false} LiveEqualsLoaded<P>(cv: Canvas<P>, ws: seq<Stroke>, toLocal: string -> Option<P>)
    ensures RemoteDrawAll(cv, ws, toLocal).paths == cv.paths + Loaded(ws, toLocal)
    ensures RemoteDrawAll(cv, ws, toLocal).redo == cv.redo
    decreases |ws|
  {
    if ws != [] {
      var cv1 := RemoteDraw(cv, ws[0], toLocal);
      LiveEqualsLoaded(cv1, ws[1..], toLocal);
      match toLocal(ws[0].path)
      case Some(p) =>
        assert cv1.paths == cv.paths + [FromWire(ws[0], p)];
        assert Loaded(ws, toLocal) == [FromWire(ws[0], p)] + Loaded(ws[1..], toLocal);
      case None =>
        assert Loaded(ws, toLocal) == Loaded(ws[1..], toLocal);
    }
  }

  /** A remote undo and the server's pop keep a mirrored log in step. */
  lemma RemoteUndoMirrorsServer<P>(cv: Canvas<P>, log: seq<Stroke>, normalize: P -> string)
    requires AllToWire(cv.paths, normalize) == log
    ensures AllToWire(RemoteUndo(cv).paths, normalize) == (if log == [] then [] else log[..|log| - 1])
  {
    if log != [] {
      var r := RemoteUndo(cv).paths;
      assert forall k :: 0 <= k < |r| ==> r[k] == cv.paths[k];
    }
  }

  // ---------------------------------------------------------------------------
  // Taps, previews and clears
  // ---------------------------------------------------------------------------

  /**
    Fill and the eyedropper look at the same stroke: the topmost one under
    the tap. The eyedropper picks its colour and fill paints exactly it.
   */
  lemma TapsAgree<P>(cv: Canvas<P>, contains: P -> bool, color: string)
    ensures var h := TopmostHit(cv.paths, contains, |cv.paths|);
            && (Eyedropper(cv.paths, contains).0.Some? <==> h.Some?)
            && (h.Some? ==> && Eyedropper(cv.paths, contains).0.value == cv.paths[h.value].color
                            && Fill(cv, contains, color).paths[h.value] == cv.paths[h.value].(fillColor := Some(color)))
            && (h.None? ==> Fill(cv, contains, color) == cv)
  {
  }

  /**
    A fill is not a history entry: when the tapped stroke is the newest,
    undo takes that stroke away, fill included, and the redo stack receives
    the filled stroke.
   */
  lemma FillThenUndo<P>(cv: Canvas<P>, contains: P -> bool, color: string, roomId: string)
    requires cv.paths != [] && contains(Last(cv.paths).path)
    ensures Undo(Fill(cv, contains, color), roomId).canvas.paths == DropLast(cv.paths)
    ensures Undo(Fill(cv, contains, color), roomId).canvas.redo == cv.redo + [Last(cv.paths).(fillColor := Some(color))]
  {
    var f := Fill(cv, contains, color);
    var n := |cv.paths|;
    assert f.paths[n - 1] == cv.paths[n - 1].(fillColor := Some(color));
    assert DropLast(f.paths) == DropLast(cv.paths) by {
      forall j | 0 <= j < n - 1
        ensures f.paths[j] == cv.paths[j]
      {
        assert j < n - 1 && contains(cv.paths[n - 1].path);
      }
    }
  }

  /**
    When the newest stroke is not under the tap, filling and then undoing
    leaves the same strokes as undoing and then filling.
   */
  lemma FillCommutesWithUndo<P>(cv: Canvas<P>, contains: P -> bool, color: string, roomId: string)
    requires cv.paths != [] && !contains(Last(cv.paths).path)
    ensures Undo(Fill(cv, contains, color), roomId).canvas.paths ==
            Fill(Undo(cv, roomId).canvas, contains, color).paths
  {
    var n := |cv.paths|;
    var a := Undo(Fill(cv, contains, color), roomId).canvas.paths;
    var b := Fill(Undo(cv, roomId).canvas, contains, color).paths;
    var d := DropLast(cv.paths);
    forall j | 0 <= j < n - 1
      ensures a[j] == b[j]
    {
      assert a[j] == Fill(cv, contains, color).paths[j] && d[j] == cv.paths[j];
      assert (forall k :: j < k < n - 1 ==> !contains(d[k].path)) <==>
             (forall k :: j < k < n ==> !contains(cv.paths[k].path)) by {
        assert forall k :: j < k < n - 1 ==> d[k] == cv.paths[k];
      }
    }
  }

  /**
    A preview is transient: once the sender's stroke arrives, the canvas is
    as if the preview had never been shown.
   */
  lemma MoveThenDrawLeavesNoPreview<P>(cv: Canvas<P>, w: Stroke, w': Stroke, localUser: string, toLocal: string -> Option<P>)
    requires w'.userId == w.userId
    ensures RemoteDraw(RemoteMove(cv, w, localUser, toLocal), w', toLocal) == RemoteDraw(cv, w', toLocal)
    ensures w.userId !in RemoteDraw(RemoteMove(cv, w, localUser, toLocal), w', toLocal).remote
  {
    var m := RemoteMove(cv, w, localUser, toLocal);
    assert m.remote - {w.userId} == cv.remote - {w.userId};
  }

  /**
    A member who sees `clear-canvas` live holds the same strokes as one who
    loads the room's log after the server cleared it.
   */
  lemma ClearMirrorsServer<P>(cv: Canvas<P>, late: Canvas<P>, s: RoomServer.Server, r: string, toLocal: string -> Option<P>)
    requires r in s.rooms
    ensures RemoteClear(cv).paths ==
            LoadCanvas(late, Some(RoomServer.HandleClear(s, r).next.rooms[r].strokes), toLocal).paths
  {
  }

  /** The toolbar's clear is the remote clear without dropping other users' previews. */
  lemma LocalClearKeepsPreviews<P>(cv: Canvas<P>)
    ensures LocalClear(cv) == RemoteClear(cv).(remote := cv.remote)
    ensures LocalClear(cv).paths == RemoteClear(cv).paths
  {
  }
}

=== FILE: chat.dfy ===
/**
  The chat overlay's client state: the message list, whether the panel is
  open, the unread counter behind the badge, and the draft text. Socket
  events, panel taps and sends are transitions of one state value.
 */
module Chat {
  import opened Protocol
  import opened Text

  /** The platform decides which text a send reads. */
  datatype Platform = Android | Ios | Web

  datatype ChatState = ChatState(messages: seq<Message>, isOpen: bool, unread: nat, text: string)

  const InitialChat := ChatState([], false, 0, "")

  /** The `send-message` payload. */
  datatype ChatEmit = ChatEmit(roomId: string, msg: Message)

  /** A `receive-message` arrival: appended; counted as unread while the panel is closed. */
  function Receive(st: ChatState, m: Message): (r: ChatState)
    ensures r.messages == st.messages + [m]
    ensures r.isOpen == st.isOpen && r.text == st.text
    ensures r.unread == (if st.isOpen then st.unread else st.unread + 1)
  {
    st.(messages := st.messages + [m], unread := if st.isOpen then st.unread else st.unread + 1)
  }

  /** `load-messages`: an array payload replaces the list; anything else is ignored. */
  function LoadMessages(st: ChatState, payload: Option<seq<Message>>): (r: ChatState)
    ensures payload.Some? ==> r == st.(messages := payload.value)
    ensures payload.None? ==> r == st
  {
    match payload
    case Some(ms) => st.(messages := ms)
    case None => st
  }

  /** Opening the panel; the effect on `isOpen` clears the counter. */
  function Open(st: ChatState): (r: ChatState)
    ensures r.isOpen && r.unread == 0
    ensures r.messages == st.messages && r.text == st.text
  {
    st.(isOpen := true, unread := 0)
  }

  function Close(st: ChatState): (r: ChatState)
    ensures !r.isOpen
    ensures r.messages == st.messages && r.unread == st.unread && r.text == st.text
  {
    st.(isOpen := false)
  }

  /** Typing replaces the draft. */
  function Type(st: ChatState, t: string): (r: ChatState)
    ensures r.text == t
    ensures r.messages == st.messages && r.isOpen == st.isOpen && r.unread == st.unread
  {
    st.(text := t)
  }

  /**
    How a send was triggered: the send button passes no text; submitting
    from the keyboard passes the native event text, which Android replaces
    by the draft.
   */
  datatype SendSource = Button | Submit(nativeText: string)

  /**
    The text a send reads before trimming. Android reads the draft; other
    platforms read the passed text, falling back to the draft (the draft
    reference and the draft state hold the same value).
   */
  function ChosenText(p: Platform, src: SendSource, draft: string): (t: string)
    ensures p == Android ==> t == draft
    ensures p != Android && src.Submit? && src.nativeText != "" ==> t == src.nativeText
    ensures p != Android && (src.Button? || src.nativeText == "") ==> t == draft
  {
    if p == Android then draft
    else
      var passed := if src.Submit? then src.nativeText else "";
      OrElse(passed, OrElse(draft, draft))
  }

  /**
    `sendMessage`: the trimmed text, if any, is emitted once and appended to
    the local list with the same fields; the draft is cleared. Blank text
    changes nothing and emits nothing.
   */
  function Send(st: ChatState, p: Platform, src: SendSource, roomId: string, userId: string, now: int): (r: (ChatState, Option<ChatEmit>))
    ensures var t := Trim(ChosenText(p, src, st.text));
            && (t == "" ==> r == (st, None))
            && (t != "" ==> r.1 == Some(ChatEmit(roomId, Message(t, userId, now)))
                            && r.0 == st.(messages := st.messages + [r.1.value.msg], text := ""))
  {
    var t := Trim(ChosenText(p, src, st.text));
    if t == "" then (st, None)
    else
      var m := Message(t, userId, now);
      (st.(messages := st.messages + [m], text := ""), Some(ChatEmit(roomId, m)))
  }

  /** A send goes out exactly when the chosen text holds a non-whitespace character. */
  lemma SendIffNotBlank(st: ChatState, p: Platform, src: SendSource, roomId: string, userId: string, now: int)
    ensures Send(st, p, src, roomId, userId, now).1.Some? <==> !AllSpace(ChosenText(p, src, st.text))
    ensures Send(st, p, src, roomId, userId, now).1.Some? ==>
              Last(Send(st, p, src, roomId, userId, now).0.messages) == Send(st, p, src, roomId, userId, now).1.value.msg
  {
    TrimEmptyIff(ChosenText(p, src, st.text));
  }

  /** The sent text has no surrounding whitespace. */
  lemma SentTextIsTrimmed(st: ChatState, p: Platform, src: SendSource, roomId: string, userId: string, now: int)
    requires Send(st, p, src, roomId, userId, now).1.Some?
    ensures var m := Send(st, p, src, roomId, userId, now).1.value.msg.message;
            m != [] && !IsSpace(m[0]) && !IsSpace(m[|m| - 1])
  {
    var s := TrimStart(ChosenText(p, src, st.text));
    var t := TrimEnd(s);
    assert t != [];
    assert t[0] == s[0];
  }

  /** The badge: hidden with no unread messages, `9+` above nine, else the count. */
  function Badge(unread: nat): (r: Option<string>)
    ensures r.None? <==> unread == 0
    ensures unread > 9 ==> r == Some("9+")
    ensures 0 < unread <= 9 ==> |r.value| == 1 && IsDigit(r.value[0]) && DecimalValue(r.value) == unread
  {
    if unread == 0 then None
    else if unread > 9 then Some("9+")
    else
      NatToStringRoundTrip(unread);
      Some(NatToString(unread))
  }

  /** `userId.split("-")[0]`: everything before the first hyphen. */
  function SenderLabel(userId: string): (r: string)
    ensures |r| <= |userId| && r == userId[..|r|]
    ensures '-' !in r
    ensures |r| < |userId| ==> userId[|r|] == '-'
  {
    if userId == [] || userId[0] == '-' then []
    else [userId[0]] + SenderLabel(userId[1..])
  }

  /** A label keeps ids without a hyphen whole. */
  lemma SenderLabelWhole(userId: string)
    requires '-' !in userId
    ensures SenderLabel(userId) == userId
  {
  }

  // ---------------------------------------------------------------------------
  // Event sequences
  // ---------------------------------------------------------------------------

  datatype ChatEvent =
    | Received(m: Message)
    | Loaded(payload: Option<seq<Message>>)
    | Opened
    | Closed
    | Typed(t: string)
    | Sent(p: Platform, src: SendSource, roomId: string, userId: string, now: int)

  function ChatStep(st: ChatState, e: ChatEvent): ChatState
  {
    match e
    case Received(m) => Receive(st, m)
    case Loaded(payload) => LoadMessages(st, payload)
    case Opened => Open(st)
    case Closed => Close(st)
    case Typed(t) => Type(st, t)
    case Sent(p, src, roomId, userId, now) => Send(st, p, src, roomId, userId, now).0
  }

  function ChatRun(st: ChatState, es: seq<ChatEvent>): ChatState
    decreases |es|
  {
    if es == [] then st else ChatRun(ChatStep(st, es[0]), es[1..])
  }

  /** An open panel never shows an unread count. */
  ghost predicate OpenMeansRead(st: ChatState)
  {
    st.isOpen ==> st.unread == 0
  }

  lemma {:induction false} OpenMeansReadKept(st: ChatState, es: seq<ChatEvent>)
    requires OpenMeansRead(st)
    ensures OpenMeansRead(ChatRun(st, es))
    decreases |es|
  {
    if es != [] {
      OpenMeansReadKept(ChatStep(st, es[0]), es[1..]);
    }
  }

  function CountReceived(es: seq<ChatEvent>): nat
    decreases |es|
  {
    if es == [] then 0 else (if es[0].Received? then 1 else 0) + CountReceived(es[1..])
  }

  /**
    While the panel stays closed, the counter grows by exactly the number of
    messages that arrived: loads, typing and own sends do not count.
   */
  lemma {:induction false} ClosedPanelCountsArrivals(st: ChatState, es: seq<ChatEvent>)
    requires !st.isOpen
    requires forall k :: 0 <= k < |es| ==> !es[k].Opened?
    ensures !ChatRun(st, es).isOpen
    ensures ChatRun(st, es).unread == st.unread + CountReceived(es)
    decreases |es|
  {
    if es != [] {
      ClosedPanelCountsArrivals(ChatStep(st, es[0]), es[1..]);
    }
  }

  /** Nothing is ever removed from the list except by a load. */
  lemma {:induction false} ListOnlyGrows(st: ChatState, es: seq<ChatEvent>)
    requires forall k :: 0 <= k < |es| ==> !es[k].Loaded?
    ensures st.messages <= ChatRun(st, es).messages
    decreases |es|
  {
    if es != [] {
      ListOnlyGrows(ChatStep(st, es[0]), es[1..]);
    }
  }
}

=== FILE: drawing_tools.dfy ===
/**
  The drawing-tools panel: the tool settings, the partial updates its
  buttons send (merged into the settings as `{...prev, ...updates}`), the
  brush styles, and the size indicator's rules.
 */
module DrawingTools {
  import opened Protocol
  import CanvasHistory

  datatype ToolType = BrushTool | ShapeTool | EraserTool | FillTool
  datatype BrushType = PenBrush | MarkerBrush | CalligraphyBrush
  datatype ShapeType = Line | Rectangle | Circle | Triangle

  /** Sizes in pixels; `brushOpacity` in hundredths. */
  datatype ToolSettings = ToolSettings(
    currentTool: ToolType, brushType: BrushType, shapeType: ShapeType,
    brushSize: int, brushOpacity: nat, eraserSize: int)

  /** The settings a room screen starts with. */
  const InitialSettings := ToolSettings(BrushTool, PenBrush, Line, 5, 100, 20)

  /** A `Partial<ToolSettings>`: absent fields are `None`. */
  datatype Patch = Patch(
    currentTool: Option<ToolType>, brushType: Option<BrushType>, shapeType: Option<ShapeType>,
    brushSize: Option<int>, brushOpacity: Option<nat>, eraserSize: Option<int>)

  const NoChange := Patch(None, None, None, None, None, None)

  /** `{...prev, ...updates}`: every field the patch carries wins; the rest stay. */
  function ApplyPatch(s: ToolSettings, p: Patch): (r: ToolSettings)
    ensures r.currentTool == p.currentTool.GetOr(s.currentTool)
    ensures r.brushType == p.brushType.GetOr(s.brushType)
    ensures r.shapeType == p.shapeType.GetOr(s.shapeType)
    ensures r.brushSize == p.brushSize.GetOr(s.brushSize)
    ensures r.brushOpacity == p.brushOpacity.GetOr(s.brushOpacity)
    ensures r.eraserSize == p.eraserSize.GetOr(s.eraserSize)
  {
    ToolSettings(
      p.currentTool.GetOr(s.currentTool), p.brushType.GetOr(s.brushType), p.shapeType.GetOr(s.shapeType),
      p.brushSize.GetOr(s.brushSize), p.brushOpacity.GetOr(s.brushOpacity), p.eraserSize.GetOr(s.eraserSize))
  }

  /** A later patch over an earlier one: the later one's fields win. */
  function Then(p: Patch, q: Patch): Patch
  {
    Patch(
      if q.currentTool.Some? then q.currentTool else p.currentTool,
      if q.brushType.Some? then q.brushType else p.brushType,
      if q.shapeType.Some? then q.shapeType else p.shapeType,
      if q.brushSize.Some? then q.brushSize else p.brushSize,
      if q.brushOpacity.Some? then q.brushOpacity else p.brushOpacity,
      if q.eraserSize.Some? then q.eraserSize else p.eraserSize)
  }

  /** Applying two patches in turn is applying their merge once. */
  lemma ApplyThen(s: ToolSettings, p: Patch, q: Patch)
    ensures ApplyPatch(ApplyPatch(s, p), q) == ApplyPatch(s, Then(p, q))
  {
  }

  /** Sending the same patch twice changes nothing the second time. */
  lemma ApplyIdempotent(s: ToolSettings, p: Patch)
    ensures ApplyPatch(ApplyPatch(s, p), p) == ApplyPatch(s, p)
  {
    ApplyThen(s, p, p);
    assert Then(p, p) == p;
  }

  /** `handleToolSelect`: only the tool changes. */
  function ToolSelect(t: ToolType): (p: Patch)
    ensures forall s :: ApplyPatch(s, p) == s.(currentTool := t)
  {
    NoChange.(currentTool := Some(t))
  }

  /** `handleBrushSelect`: the brush, and the brush tool with it. */
  function BrushSelect(b: BrushType): (p: Patch)
    ensures forall s :: ApplyPatch(s, p) == s.(brushType := b, currentTool := BrushTool)
  {
    NoChange.(brushType := Some(b), currentTool := Some(BrushTool))
  }

  /** `handleShapeSelect`: the shape, and the shape tool with it. */
  function ShapeSelect(sh: ShapeType): (p: Patch)
    ensures forall s :: ApplyPatch(s, p) == s.(shapeType := sh, currentTool := ShapeTool)
  {
    NoChange.(shapeType := Some(sh), currentTool := Some(ShapeTool))
  }

  /** `BRUSH_CONFIGS`: the pen and calligraphy are opaque, the marker at 70%. */
  function BrushConfigs(b: BrushType): (c: CanvasHistory.BrushConfig)
    ensures c.opacity <= 100
    ensures c.opacity < 100 <==> b == MarkerBrush
    ensures b == MarkerBrush ==> c.opacity == 70
  {
    match b
    case PenBrush => CanvasHistory.BrushConfig(CanvasHistory.RoundCap, CanvasHistory.RoundJoin, 100)
    case MarkerBrush => CanvasHistory.BrushConfig(CanvasHistory.SquareCap, CanvasHistory.BevelJoin, 70)
    case CalligraphyBrush => CanvasHistory.BrushConfig(CanvasHistory.ButtCap, CanvasHistory.MiterJoin, 100)
  }

  /** Each brush has its own cap and join. */
  lemma BrushConfigsDistinct(a: BrushType, b: BrushType)
    requires BrushConfigs(a) == BrushConfigs(b)
    ensures a == b
  {
  }

  /** The width the canvas draws with: the eraser's size for the eraser, else the brush's. */
  function CanvasWidth(s: ToolSettings): int
  {
    if s.currentTool == EraserTool then s.eraserSize else s.brushSize
  }

  /** The pen the canvas commits strokes with. */
  function CanvasPen(s: ToolSettings, color: string): (pen: CanvasHistory.Pen)
    ensures pen.isEraser <==> s.currentTool == EraserTool
    ensures pen.strokeWidth == CanvasWidth(s) && pen.color == color
    ensures pen.brush == BrushConfigs(s.brushType)
  {
    CanvasHistory.Pen(color, CanvasWidth(s), s.currentTool == EraserTool, BrushConfigs(s.brushType))
  }

  /** The size indicator: the active size, at most 30. */
  function SizeIndicator(s: ToolSettings): (d: int)
    ensures d <= 30
    ensures d == CanvasWidth(s) || d == 30
    ensures CanvasWidth(s) <= 30 ==> d == CanvasWidth(s)
    ensures s.currentTool == EraserTool && s.eraserSize <= 30 ==> d == s.eraserSize
    ensures s.currentTool != EraserTool && s.brushSize <= 30 ==> d == s.brushSize
  {
    var w := if s.currentTool == EraserTool then s.eraserSize else s.brushSize;
    if w < 30 then w else 30
  }

  /** The indicator's opacity, in hundredths: the brush's only for the brush tool. */
  function IndicatorOpacity(s: ToolSettings): (o: nat)
    ensures s.currentTool == BrushTool ==> o == BrushConfigs(s.brushType).opacity
    ensures s.currentTool != BrushTool ==> o == 100
  {
    if s.currentTool == BrushTool then BrushConfigs(s.brushType).opacity else 100
  }

  /** The indicator's colour: grey for the eraser, else the selected colour. */
  function IndicatorColor(s: ToolSettings, selectedColor: string): (c: string)
    ensures s.currentTool == EraserTool ==> c == "#888"
    ensures s.currentTool != EraserTool ==> c == selectedColor
  {
    if s.currentTool == EraserTool then "#888" else selectedColor
  }

  /** The indicator previews the pen the canvas draws with: grey for the eraser, else its colour and width. */
  lemma IndicatorMatchesPen(s: ToolSettings, color: string)
    ensures CanvasPen(s, color).isEraser ==> IndicatorColor(s, color) == "#888"
    ensures !CanvasPen(s, color).isEraser ==> IndicatorColor(s, color) == CanvasPen(s, color).color
    ensures CanvasPen(s, color).strokeWidth <= 30 ==> SizeIndicator(s) == CanvasPen(s, color).strokeWidth
    ensures CanvasPen(s, color).strokeWidth > 30 ==> SizeIndicator(s) == 30
  {
  }

  predicate ShowBrushRow(s: ToolSettings) { s.currentTool == BrushTool }

  predicate ShowShapeRow(s: ToolSettings) { s.currentTool == ShapeTool }

  /** Picking a brush opens the brush row, closes the shape row, and shows the brush's opacity. */
  lemma BrushSelectShowsBrush(s: ToolSettings, b: BrushType)
    ensures var s' := ApplyPatch(s, BrushSelect(b));
            && ShowBrushRow(s') && !ShowShapeRow(s')
            && IndicatorOpacity(s') == BrushConfigs(b).opacity
            && SizeIndicator(s') == SizeIndicator(s.(currentTool := BrushTool))
  {
  }

  /** Picking a shape opens the shape row, closes the brush row, and shows full opacity. */
  lemma ShapeSelectShowsShape(s: ToolSettings, sh: ShapeType)
    ensures var s' := ApplyPatch(s, ShapeSelect(sh));
            && ShowShapeRow(s') && !ShowBrushRow(s') && IndicatorOpacity(s') == 100
            && s'.brushType == s.brushType
  {
  }

  /** A button press on the panel. */
  datatype PanelPress = ToolPress(tool: ToolType) | BrushPress(brush: BrushType) | ShapePress(shape: ShapeType)

  /** The panel offers the brush, shape and fill tools. */
  predicate Offered(p: PanelPress)
  {
    !p.ToolPress? || p.tool != EraserTool
  }

  function PatchOf(p: PanelPress): Patch
  {
    match p
    case ToolPress(t) => ToolSelect(t)
    case BrushPress(b) => BrushSelect(b)
    case ShapePress(sh) => ShapeSelect(sh)
  }

  function PressPanel(s: ToolSettings, ps: seq<PanelPress>): ToolSettings
    decreases |ps|
  {
    if ps == [] then s else PressPanel(ApplyPatch(s, PatchOf(ps[0])), ps[1..])
  }

  /** Panel presses touch only the tool, brush and shape: the sizes and opacity stay. */
  lemma {:induction false} PanelKeepsSizes(s: ToolSettings, ps: seq<PanelPress>)
    ensures var s' := PressPanel(s, ps);
            && s'.brushSize == s.brushSize && s'.eraserSize == s.eraserSize && s'.brushOpacity == s.brushOpacity
            && (ps != [] && (forall k :: 0 <= k < |ps| ==> Offered(ps[k])) ==> s'.currentTool != EraserTool)
    decreases |ps|
  {
    if ps != [] {
      PanelKeepsSizes(ApplyPatch(s, PatchOf(ps[0])), ps[1..]);
    }
  }
}

=== FILE: hex_color.dfy ===
/**
  The colour picker's hex text: formatting an RGB triple as `#RRGGBB`,
  parsing `#rrggbb` (case-insensitive, `#` optional) back, and the
  normalisation applied to what the user types into the hex field.
 */
module HexColor {
  import opened Protocol
  import opened Text

  datatype Rgb = Rgb(r: nat, g: nat, b: nat)

  predicate IsByte(n: nat) { n < 256 }

  /** `[0-9a-fA-F]`, which is what `[a-f\d]` matches under the `i` flag. */
  predicate IsHexChar(c: char)
  {
    IsDigit(c) || 'a' <= c <= 'f' || 'A' <= c <= 'F'
  }

  predicate AllHex(s: string)
  {
    forall i :: 0 <= i < |s| ==> IsHexChar(s[i])
  }

  function HexValue(c: char): (v: nat)
    requires IsHexChar(c)
    ensures v < 16
  {
    if IsDigit(c) then c as int - '0' as int
    else if 'a' <= c <= 'f' then c as int - 'a' as int + 10
    else c as int - 'A' as int + 10
  }

  /** The upper-case digit for a value below 16. */
  function HexDigit(d: nat): (c: char)
    requires d < 16
    ensures IsHexChar(c) && !IsLowerLetter(c) && HexValue(c) == d
  {
    if d < 10 then ('0' as int + d) as char else ('A' as int + d - 10) as char
  }

  /** `n.toString(16).toUpperCase()`. */
  function HexString(n: nat): (s: string)
    ensures |s| > 0
    decreases n
  {
    if n < 16 then [HexDigit(n)] else HexString(n / 16) + [HexDigit(n % 16)]
  }

  /** `n.toString(16).padStart(2, '0').toUpperCase()`. */
  function ToHex(n: nat): string
  {
    var s := HexString(n);
    if |s| < 2 then "0" + s else s
  }

  /** A byte is always two upper-case digits, high nibble first. */
  lemma ToHexByte(n: nat)
    requires IsByte(n)
    ensures ToHex(n) == [HexDigit(n / 16), HexDigit(n % 16)]
  {
    if n >= 16 {
      assert HexString(n) == HexString(n / 16) + [HexDigit(n % 16)];
    }
  }

  /** `rgbToHex`: `#` and two digits per component. */
  function RgbToHex(c: Rgb): string
  {
    "#" + ToHex(c.r) + ToHex(c.g) + ToHex(c.b)
  }

  /** Two hex digits read as a byte. */
  function PairValue(hi: char, lo: char): (v: nat)
    requires IsHexChar(hi) && IsHexChar(lo)
    ensures IsByte(v)
  {
    16 * HexValue(hi) + HexValue(lo)
  }

  /** What `/^#?([a-f\d]{2})([a-f\d]{2})([a-f\d]{2})$/i` accepts. */
  predicate MatchesHex(s: string)
  {
    || (|s| == 7 && s[0] == '#' && AllHex(s[1..]))
    || (|s| == 6 && AllHex(s))
  }

  /** The six digits of a matching string. */
  function Digits(s: string): (d: string)
    requires MatchesHex(s)
    ensures |d| == 6 && AllHex(d)
  {
    if |s| == 7 then s[1..] else s
  }

  /** `hexToRgb`: the three pairs of a matching string, else black. */
  function HexToRgb(s: string): (c: Rgb)
    ensures IsByte(c.r) && IsByte(c.g) && IsByte(c.b)
    ensures !MatchesHex(s) ==> c == Rgb(0, 0, 0)
  {
    if MatchesHex(s) then
      var d := Digits(s);
      Rgb(PairValue(d[0], d[1]), PairValue(d[2], d[3]), PairValue(d[4], d[5]))
    else Rgb(0, 0, 0)
  }

  /** Formatting gives `#` and six upper-case hex digits for byte components. */
  lemma RgbToHexShape(c: Rgb)
    requires IsByte(c.r) && IsByte(c.g) && IsByte(c.b)
    ensures var h := RgbToHex(c);
            && |h| == 7 && h[0] == '#' && AllHex(h[1..])
            && forall i :: 0 <= i < 7 ==> !IsLowerLetter(h[i])
  {
    ToHexByte(c.r);
    ToHexByte(c.g);
    ToHexByte(c.b);
  }

  /** Parsing a formatted colour gives the colour back. */
  lemma RgbRoundTrip(c: Rgb)
    requires IsByte(c.r) && IsByte(c.g) && IsByte(c.b)
    ensures HexToRgb(RgbToHex(c)) == c
  {
    ToHexByte(c.r);
    ToHexByte(c.g);
    ToHexByte(c.b);
    RgbToHexShape(c);
  }

  lemma HexDigitOfValue(c: char)
    requires IsHexChar(c)
    ensures HexDigit(HexValue(c)) == UpperChar(c)
  {
  }

  /** A parsed pair prints back as the same two digits, upper-cased. */
  lemma PairCanonical(hi: char, lo: char)
    requires IsHexChar(hi) && IsHexChar(lo)
    ensures ToHex(PairValue(hi, lo)) == [UpperChar(hi), UpperChar(lo)]
  {
    var v := PairValue(hi, lo);
    ToHexByte(v);
    assert v / 16 == HexValue(hi) && v % 16 == HexValue(lo);
    HexDigitOfValue(hi);
    HexDigitOfValue(lo);
  }

  /** Formatting a parsed colour gives its digits in upper case, after `#`. */
  lemma HexCanonical(s: string)
    requires MatchesHex(s)
    ensures RgbToHex(HexToRgb(s)) == "#" + Upper(Digits(s))
  {
    var d := Digits(s);
    PairCanonical(d[0], d[1]);
    PairCanonical(d[2], d[3]);
    PairCanonical(d[4], d[5]);
    var u := Upper(d);
    assert u == [u[0], u[1]] + [u[2], u[3]] + [u[4], u[5]];
  }

  /** Upper-casing neither creates nor destroys hex digits. */
  lemma UpperKeepsHex(s: string)
    ensures AllHex(Upper(s)) <==> AllHex(s)
  {
    var u := Upper(s);
    forall i | 0 <= i < |s|
      ensures IsHexChar(u[i]) <==> IsHexChar(s[i])
    {
    }
  }

  // ---------------------------------------------------------------------------
  // The hex text field
  // ---------------------------------------------------------------------------

  /** Upper-case, prefix `#` when missing, keep at most seven characters. */
  function NormalizeHexText(text: string): (r: string)
    ensures 1 <= |r| <= 7 && r[0] == '#'
    ensures forall i :: 0 <= i < |r| ==> !IsLowerLetter(r[i])
    ensures |text| > 0 && text[0] == '#' ==> r == Upper(text[..if |text| < 7 then |text| else 7])
    ensures (text == [] || text[0] != '#') ==> r == "#" + Upper(text[..if |text| < 6 then |text| else 6])
  {
    var up := Upper(text);
    var hashed := if |up| > 0 && up[0] == '#' then up else "#" + up;
    UpperPrefix(text, if |text| < 7 then |text| else 7);
    UpperPrefix(text, if |text| < 6 then |text| else 6);
    if |hashed| > 7 then hashed[..7] else hashed
  }

  /** Normalising a normalised text changes nothing. */
  lemma NormalizeIdempotent(text: string)
    ensures NormalizeHexText(NormalizeHexText(text)) == NormalizeHexText(text)
  {
    var n := NormalizeHexText(text);
    assert Upper(n) == n;
  }

  /** `/^#[0-9A-F]{6}$/i`. */
  predicate IsHexColor(s: string)
  {
    |s| == 7 && s[0] == '#' && AllHex(s[1..])
  }

  /** After an edit: the text shown, and the colour applied, if any. */
  datatype HexEdit = HexEdit(display: string, selected: Option<string>, rgb: Option<Rgb>)

  /** The field's change handler: always show the normalised text; apply it only when complete. */
  function EditHex(text: string): (e: HexEdit)
    ensures e.display == NormalizeHexText(text)
    ensures e.selected.Some? <==> IsHexColor(e.display)
    ensures e.selected.Some? ==> e.selected.value == e.display && e.rgb == Some(HexToRgb(e.display))
    ensures e.selected.None? ==> e.rgb.None?
  {
    var shown := NormalizeHexText(text);
    if IsHexColor(shown) then HexEdit(shown, Some(shown), Some(HexToRgb(shown)))
    else HexEdit(shown, None, None)
  }

  /** An applied colour is exactly what formatting its own RGB gives. */
  lemma AppliedColourIsCanonical(text: string)
    requires EditHex(text).selected.Some?
    ensures RgbToHex(EditHex(text).rgb.value) == EditHex(text).selected.value
  {
    var shown := NormalizeHexText(text);
    HexCanonical(shown);
    assert Upper(shown[1..]) == shown[1..];
  }

  /**
    Which typed texts get applied: six hex digits, with or without a leading
    `#`, followed by anything (the excess is cut off).
   */
  lemma AppliedTexts(text: string)
    ensures EditHex(text).selected.Some? <==>
            || (|text| >= 7 && text[0] == '#' && AllHex(text[1..7]))
            || (|text| >= 6 && (text == [] || text[0] != '#') && AllHex(text[..6]))
  {
    var up := Upper(text);
    var shown := NormalizeHexText(text);
    if |text| > 0 && text[0] == '#' {
      assert up[0] == '#';
      if |text| >= 7 {
        assert shown[1..] == Upper(text[1..7]);
        UpperKeepsHex(text[1..7]);
      }
    } else {
      assert |up| == 0 || up[0] != '#';
      if |text| >= 6 {
        assert shown[1..] == Upper(text[..6]);
        UpperKeepsHex(text[..6]);
      }
    }
  }
}

=== FILE: home_screen.dfy ===
/**
  The home screen: the room-code field filter, creating a room or a VS room
  under a random five-digit code, and joining an existing room after asking
  the server whether it is live. The server's answers and the random draw
  are inputs; saving to history, the toast and navigation are outputs.
 */
module HomeScreen {
  import opened Protocol
  import opened Text
  import RoomServer
  import RoomServerProperties

  // ---------------------------------------------------------------------------
  // The room-code field
  // ---------------------------------------------------------------------------

  /** The field's length limit, applied by the text input before the handler runs. */
  const CodeLength: nat := 5

  /** `text.replace(/[^0-9]/g, '')`. */
  function KeepDigits(s: string): (r: string)
    ensures |r| <= |s|
    ensures forall i :: 0 <= i < |r| ==> IsDigit(r[i])
    ensures (forall i :: 0 <= i < |s| ==> IsDigit(s[i])) ==> r == s
    decreases |s|
  {
    if s == [] then []
    else (if IsDigit(s[0]) then [s[0]] else []) + KeepDigits(s[1..])
  }

  /** Each character is kept exactly when it is a digit. */
  lemma KeepDigitsSingle(c: char)
    ensures KeepDigits([c]) == if IsDigit(c) then [c] else []
  {
  }

  /**
    The filter works piece by piece: filtering a concatenation is filtering
    each part and concatenating, so the kept digits keep their order. With
    `KeepDigitsSingle` this determines the filter on every string.
   */
  lemma {:induction false} KeepDigitsAppend(a: string, b: string)
    ensures KeepDigits(a + b) == KeepDigits(a) + KeepDigits(b)
    decreases |a|
  {
    if a == [] {
      assert a + b == b;
    } else {
      assert (a + b)[0] == a[0] && (a + b)[1..] == a[1..] + b;
      KeepDigitsAppend(a[1..], b);
    }
  }

  /** Every digit of the input survives as often as it occurs; everything else is dropped. */
  lemma {:induction false} KeepDigitsCounts(s: string, c: char)
    ensures multiset(KeepDigits(s))[c] == if IsDigit(c) then multiset(s)[c] else 0
    decreases |s|
  {
    if s != [] {
      KeepDigitsCounts(s[1..], c);
      assert s == [s[0]] + s[1..];
    }
  }

  lemma KeepDigitsCountsAll(s: string)
    ensures forall c :: multiset(KeepDigits(s))[c] == if IsDigit(c) then multiset(s)[c] else 0
  {
    forall c {
      KeepDigitsCounts(s, c);
    }
  }

  /**
    The room-code field's new value for the text the input hands over: the
    digits among its first `CodeLength` characters.
   */
  function FilterRoomCode(text: string): (r: string)
    ensures |r| <= CodeLength
    ensures forall i :: 0 <= i < |r| ==> IsDigit(r[i])
    ensures var t := text[..if |text| < CodeLength then |text| else CodeLength];
            && (forall c :: multiset(r)[c] == if IsDigit(c) then multiset(t)[c] else 0)
            && ((forall i :: 0 <= i < |t| ==> IsDigit(t[i])) ==> r == t)
  {
    var t := text[..if |text| < CodeLength then |text| else CodeLength];
    KeepDigitsCountsAll(t);
    KeepDigits(t)
  }

  /** A code already in the field survives another pass unchanged. */
  lemma FilterRoomCodeIdempotent(text: string)
    ensures FilterRoomCode(FilterRoomCode(text)) == FilterRoomCode(text)
  {
  }

  // ---------------------------------------------------------------------------
  // Outcomes
  // ---------------------------------------------------------------------------

  datatype Route =
    | DrawingRoom(id: string, username: string)
    | VsRoom(id: string, username: string, timeLimit: string)

  datatype HomeEmit = CheckRoomEmit(roomId: string) | CheckVsRoomEmit(roomId: string)

  datatype Saved = Saved(roomId: string, username: string)

  datatype Outcome = Outcome(toast: Option<string>, saved: Option<Saved>, route: Option<Route>, emits: seq<HomeEmit>)

  const NameMissing := "ENTER A NAME, HERO!"
  const FieldsMissing := "ENTER ROOM ID & NAME!"
  const Unreachable := "SERVER UNREACHABLE"
  const NotFound := "ROOM NOT FOUND!"
  const VsTimeLimit := "90"

  /** Only a toast. */
  function ToastOnly(msg: string): Outcome
  {
    Outcome(Some(msg), None, None, [])
  }

  // ---------------------------------------------------------------------------
  // Creating a room
  // ---------------------------------------------------------------------------

  /** A draw of `Math.random()`, the fraction `num / den` in [0, 1). */
  datatype Draw = Draw(num: nat, den: nat)

  predicate ValidDraw(d: Draw) { d.num < d.den }

  /** `Math.floor(10000 + Math.random() * 90000)`. */
  function RoomNumber(d: Draw): (n: nat)
    requires ValidDraw(d)
    ensures 10000 <= n <= 99999
  {
    10000 + (90000 * d.num) / d.den
  }

  /** Every five-digit code can come up. */
  lemma RoomNumberOnto(n: nat)
    requires 10000 <= n <= 99999
    ensures RoomNumber(Draw(n - 10000, 90000)) == n
  {
  }

  /** A number in 10000..99999 prints as five digits. */
  lemma FiveDigits(n: nat)
    requires 10000 <= n <= 99999
    ensures |NatToString(n)| == CodeLength
  {
    assert |NatToString(n / 10000)| == 1;
    assert |NatToString(n / 1000)| == 2 by {
      assert (n / 1000) / 10 == n / 10000;
    }
    assert |NatToString(n / 100)| == 3 by {
      assert (n / 100) / 10 == n / 1000;
    }
    assert |NatToString(n / 10)| == 4 by {
      assert (n / 10) / 10 == n / 100;
    }
  }

  /** The code `toString` gives for a draw. */
  function NewRoomId(d: Draw): (id: string)
    requires ValidDraw(d)
    ensures |id| == CodeLength && FilterRoomCode(id) == id
    ensures (forall i :: 0 <= i < |id| ==> IsDigit(id[i])) && DecimalValue(id) == RoomNumber(d)
  {
    FiveDigits(RoomNumber(d));
    NatToStringRoundTrip(RoomNumber(d));
    NatToString(RoomNumber(d))
  }

  /** `createSession`: a name is required; the new room is saved and opened. */
  function CreateSession(username: string, d: Draw): (o: Outcome)
    requires ValidDraw(d)
    ensures username == "" ==> o == ToastOnly(NameMissing)
    ensures username != "" ==>
              && o.toast.None? && o.emits == []
              && o.route.Some? && o.route.value.DrawingRoom? && o.route.value.username == username
              && o.saved == Some(Saved(o.route.value.id, username))
              && o.route.value.id == NewRoomId(d)
  {
    if username == "" then ToastOnly(NameMissing)
    else
      var id := NewRoomId(d);
      Outcome(None, Some(Saved(id, username)), Some(DrawingRoom(id, username)), [])
  }

  /** `createVSSession`: a name is required; the VS room is opened and not saved. */
  function CreateVsSession(username: string, d: Draw): (o: Outcome)
    requires ValidDraw(d)
    ensures username == "" ==> o == ToastOnly(NameMissing)
    ensures username != "" ==>
              && o.toast.None? && o.saved.None? && o.emits == []
              && o.route.Some? && o.route.value.VsRoom?
              && o.route.value.username == username && o.route.value.timeLimit == VsTimeLimit
              && o.route.value.id == NewRoomId(d)
  {
    if username == "" then ToastOnly(NameMissing)
    else
      Outcome(None, None, Some(VsRoom(NewRoomId(d), username, VsTimeLimit)), [])
  }

  // ---------------------------------------------------------------------------
  // Joining a room
  // ---------------------------------------------------------------------------

  /**
    `joinSession`. Both fields are required. `check-room` goes out first; a
    true answer opens and saves the drawing room. Only a false answer sends
    `check-vs-room`, whose true answer opens the VS room unsaved and whose
    false answer reports the room missing. An answer that never comes
    (`None`) leaves the timeout's toast.
   */
  function JoinSession(roomId: string, username: string, regular: Option<bool>, vs: Option<bool>): (o: Outcome)
    ensures roomId == "" || username == "" ==> o == ToastOnly(FieldsMissing)
    ensures roomId != "" && username != "" ==>
              && |o.emits| > 0 && o.emits[0] == CheckRoomEmit(roomId)
              && (CheckVsRoomEmit(roomId) in o.emits <==> regular == Some(false))
              && (o.route == Some(DrawingRoom(roomId, username)) <==> regular == Some(true))
              && (o.saved.Some? <==> regular == Some(true))
              && (o.route == Some(VsRoom(roomId, username, VsTimeLimit)) <==> regular == Some(false) && vs == Some(true))
              && (o.toast == Some(NotFound) <==> regular == Some(false) && vs == Some(false))
              && (o.toast == Some(Unreachable) <==> regular.None? || (regular == Some(false) && vs.None?))
  {
    if roomId == "" || username == "" then ToastOnly(FieldsMissing)
    else
      match regular
      case None => Outcome(Some(Unreachable), None, None, [CheckRoomEmit(roomId)])
      case Some(true) =>
        Outcome(None, Some(Saved(roomId, username)), Some(DrawingRoom(roomId, username)), [CheckRoomEmit(roomId)])
      case Some(false) =>
        var emits := [CheckRoomEmit(roomId), CheckVsRoomEmit(roomId)];
        match vs
        case None => Outcome(Some(Unreachable), None, None, emits)
        case Some(true) => Outcome(None, None, Some(VsRoom(roomId, username, VsTimeLimit)), emits)
        case Some(false) => Outcome(Some(NotFound), None, None, emits)
  }

  /** The relay's reply to `check-room` from connection `c`. */
  function ServerAnswer(s: RoomServer.Server, c: string, r: string): (a: bool)
    requires RoomServerProperties.Valid(s) && c in s.sessions
    ensures a <==> exists d :: RoomServerProperties.LiveMember(s, r, d)
  {
    RoomServerProperties.CheckRoomIffLiveMember(s, c, r);
    RoomServer.Step(s, c, RoomServer.CheckRoom(r)).out[0].payload.answer
  }

  /**
    Against the relay: a join opens the drawing room exactly when the room
    has a connected member, and then never asks about VS rooms.
   */
  lemma JoinOpensLiveRoom(s: RoomServer.Server, c: string, roomId: string, username: string, vs: Option<bool>)
    requires RoomServerProperties.Valid(s) && c in s.sessions
    requires roomId != "" && username != ""
    ensures var o := JoinSession(roomId, username, Some(ServerAnswer(s, c, roomId)), vs);
            && (o.route == Some(DrawingRoom(roomId, username)) <==>
                exists d :: RoomServerProperties.LiveMember(s, roomId, d))
            && (o.route == Some(DrawingRoom(roomId, username)) ==> o.emits == [CheckRoomEmit(roomId)])
  {
  }

  /**
    A created room can be joined by its code: the code survives the room-code
    field, and a join answered "live" opens and saves the same room.
   */
  lemma CreatedRoomCanBeJoined(username: string, d: Draw, vs: Option<bool>)
    requires ValidDraw(d) && username != ""
    ensures var c := CreateSession(username, d);
            var id := c.route.value.id;
            && FilterRoomCode(id) == id
            && JoinSession(id, username, Some(true), vs).route == c.route
            && JoinSession(id, username, Some(true), vs).saved == c.saved
  {
  }

  /**
    A created VS room is reached by joining its code when the server knows it
    only as a VS room; like creating it, joining does not save it.
   */
  lemma CreatedVsRoomCanBeJoined(username: string, d: Draw)
    requires ValidDraw(d) && username != ""
    ensures var c := CreateVsSession(username, d);
            var id := c.route.value.id;
            && FilterRoomCode(id) == id
            && JoinSession(id, username, Some(false), Some(true)).route == c.route
            && JoinSession(id, username, Some(false), Some(true)).saved == c.saved
  {
  }
}

=== FILE: protocol.dfy ===
/**
  Records that travel between the drawing clients and the room server: the
  committed stroke and the chat message, plus the optional value used for
  JavaScript's `undefined`/`null`.
 */
module Protocol {

  datatype Option<+T> = None | Some(value: T) {
    /** `x ?? d` (and `x || d` when the only falsy value is absence). */
    function GetOr(default: T): T
    {
      match this
      case Some(v) => v
      case None => default
    }
  }

  /** A socket id, assigned by the transport. */
  type ConnId = string

  /**
    A room code as the client sends it. The home screen sends only digit
    codes; names an empty JavaScript object inherits (`constructor`,
    `__proto__`, ...) are outside the model.
   */
  type RoomId = string

  /**
    A committed stroke as the server stores and relays it: the path in the
    1000x1000 virtual canvas as SVG text (opaque here), its style, the
    identity of its author and whether it erases.
   */
  datatype Stroke = Stroke(path: string, color: string, strokeWidth: int, userId: string, isEraser: bool)

  /** A chat message as the server stores and relays it. */
  datatype Message = Message(message: string, userId: string, timestamp: int)

  /**
    JavaScript's `a || b` on strings: the empty string is the only falsy
    string, and a missing argument is modelled as the empty string.
   */
  function OrElse(a: string, b: string): (r: string)
    ensures a != "" ==> r == a
    ensures a == "" ==> r == b
  {
    if a != "" then a else b
  }

  /** The final element: `s[s.length - 1]`. */
  function Last<T>(s: seq<T>): T
    requires s != []
  {
    s[|s| - 1]
  }

  /** Everything but the final element: `s.slice(0, -1)`. */
  function DropLast<T>(s: seq<T>): (r: seq<T>)
    requires s != []
    ensures r + [Last(s)] == s
  {
    s[..|s| - 1]
  }
}

=== FILE: room_history.dfy ===
/**
  The room-history overlay: how long ago a room was visited, bucketed into
  minutes, hours and days, and which name a resumed room is entered under.
  Times are integer milliseconds; the locale date is left to a parameter.
 */
module RoomHistory {
  import opened Protocol
  import opened Text
  import HomeScreen

  const MinuteMs: int := 60000
  const HourMs: int := 3600000
  const DayMs: int := 86400000
  const WeekMs: int := 7 * DayMs

  /** The label `formatTime` picks. */
  datatype TimeLabel =
    | JustNow
    | MinutesAgo(mins: nat)
    | HoursAgo(hours: nat)
    | DaysAgo(days: nat)
    | LocaleDate

  /**
    `formatTime`: the whole minutes, hours and days elapsed (floor division,
    so a visit "in the future" reads as just now), checked in that order.
   */
  function FormatTime(timestamp: int, now: int): (l: TimeLabel)
    ensures var diff := now - timestamp;
            && (l.JustNow? <==> diff < MinuteMs)
            && (l.MinutesAgo? <==> MinuteMs <= diff < HourMs)
            && (l.HoursAgo? <==> HourMs <= diff < DayMs)
            && (l.DaysAgo? <==> DayMs <= diff < WeekMs)
            && (l.LocaleDate? <==> WeekMs <= diff)
    ensures l.MinutesAgo? ==> 1 <= l.mins < 60 && l.mins * MinuteMs <= now - timestamp < (l.mins + 1) * MinuteMs
    ensures l.HoursAgo? ==> 1 <= l.hours < 24 && l.hours * HourMs <= now - timestamp < (l.hours + 1) * HourMs
    ensures l.DaysAgo? ==> 1 <= l.days < 7 && l.days * DayMs <= now - timestamp < (l.days + 1) * DayMs
  {
    var diff := now - timestamp;
    var diffMins := diff / MinuteMs;
    var diffHours := diff / HourMs;
    var diffDays := diff / DayMs;
    if diffMins < 1 then JustNow
    else if diffMins < 60 then MinutesAgo(diffMins)
    else if diffHours < 24 then HoursAgo(diffHours)
    else if diffDays < 7 then DaysAgo(diffDays)
    else LocaleDate
  }

  /** The text shown; `localeDate` stands for `toLocaleDateString`. */
  function RenderTime(l: TimeLabel, localeDate: string): (s: string)
    ensures l.JustNow? ==> s == "Just now"
    ensures l.MinutesAgo? ==> |s| > 5 && s[..|s| - 5] == NatToString(l.mins) && s[|s| - 5..] == "m ago"
    ensures l.HoursAgo? ==> |s| > 5 && s[..|s| - 5] == NatToString(l.hours) && s[|s| - 5..] == "h ago"
    ensures l.DaysAgo? ==> |s| > 5 && s[..|s| - 5] == NatToString(l.days) && s[|s| - 5..] == "d ago"
    ensures l.LocaleDate? ==> s == localeDate
  {
    match l
    case JustNow => "Just now"
    case MinutesAgo(m) => NatToString(m) + "m ago"
    case HoursAgo(h) => NatToString(h) + "h ago"
    case DaysAgo(d) => NatToString(d) + "d ago"
    case LocaleDate => localeDate
  }

  /** The labels keep their order: a later visit never reads as longer ago. */
  lemma FormatTimeMonotone(t1: int, t2: int, now: int)
    requires t1 <= t2
    ensures Rank(FormatTime(t2, now)) <= Rank(FormatTime(t1, now))
  {
  }

  /** Buckets from most to least recent. */
  function Rank(l: TimeLabel): nat
  {
    match l
    case JustNow => 0
    case MinutesAgo(_) => 1
    case HoursAgo(_) => 2
    case DaysAgo(_) => 3
    case LocaleDate => 4
  }

  /** A later visit never shows more minutes. */
  lemma MinutesMonotone(t1: int, t2: int, now: int)
    requires t1 <= t2
    requires FormatTime(t1, now).MinutesAgo? && FormatTime(t2, now).MinutesAgo?
    ensures FormatTime(t2, now).mins <= FormatTime(t1, now).mins
  {
  }

  /** Different labels never render to the same text. */
  lemma RenderInjective(l1: TimeLabel, l2: TimeLabel, localeDate: string)
    requires !l1.LocaleDate? && !l2.LocaleDate?
    requires RenderTime(l1, localeDate) == RenderTime(l2, localeDate)
    ensures l1 == l2
  {
    var s := RenderTime(l1, localeDate);
    if l1.JustNow? || l2.JustNow? {
      assert s[|s| - 4..] == " now";
    } else {
      if l1.MinutesAgo? && l2.MinutesAgo? {
        NatToStringInjective(l1.mins, l2.mins);
      } else if l1.HoursAgo? && l2.HoursAgo? {
        NatToStringInjective(l1.hours, l2.hours);
      } else if l1.DaysAgo? && l2.DaysAgo? {
        NatToStringInjective(l1.days, l2.days);
      }
    }
  }

  /** A saved visit. */
  datatype HistoryItem = HistoryItem(roomId: string, username: string, timestamp: int)

  /**
    `handleResume`: open the saved room under the name currently typed on the
    home screen, or under the saved name when nothing is typed.
   */
  function Resume(item: HistoryItem, currentUsername: string): (r: HomeScreen.Route)
    ensures r.DrawingRoom? && r.id == item.roomId
    ensures currentUsername != "" ==> r.username == currentUsername
    ensures currentUsername == "" ==> r.username == item.username
  {
    HomeScreen.DrawingRoom(item.roomId, OrElse(currentUsername, item.username))
  }

  /**
    Resuming a room the home screen saved, with no name typed, opens the
    same route the home screen opened when it saved it.
   */
  lemma SavedRoomResumes(roomId: string, username: string, regular: Option<bool>, vs: Option<bool>, t: int)
    requires HomeScreen.JoinSession(roomId, username, regular, vs).saved.Some?
    ensures var o := HomeScreen.JoinSession(roomId, username, regular, vs);
            o.route.Some? && Resume(HistoryItem(o.saved.value.roomId, o.saved.value.username, t), "") == o.route.value
  {
  }

  /** The same for a room created on the home screen. */
  lemma CreatedRoomResumes(username: string, d: HomeScreen.Draw, t: int)
    requires HomeScreen.ValidDraw(d) && username != ""
    ensures var o := HomeScreen.CreateSession(username, d);
            Resume(HistoryItem(o.saved.value.roomId, o.saved.value.username, t), "") == o.route.value
  {
  }
}

=== FILE: room_server.dfy ===
/**
  The room-state relay of the drawing server: an in-memory table from room id
  to {stroke log, member map, chat log}, plus the transport's own room
  membership, driven one socket event at a time. Every handler returns the
  next state and the messages it sends, each tagged with who receives it.
 */
module RoomServer {
  import opened Protocol

  // ---------------------------------------------------------------------------
  // The member map `users` of a room. A JavaScript object keeps its keys in
  // insertion order and `Object.values` lists them in that order, so the map is
  // an association list: re-assigning a key keeps its place, a new key goes at
  // the end, `delete` drops the key.
  // ---------------------------------------------------------------------------

  datatype Member = Member(conn: ConnId, userId: string)

  function Conns(users: seq<Member>): (r: set<ConnId>)
    ensures r == {} <==> users == []
  {
    if users == [] then {} else {users[0].conn} + Conns(users[1..])
  }

  /** No connection appears twice (object keys are unique). */
  predicate Distinct(users: seq<Member>)
  {
    users == [] || (users[0].conn !in Conns(users[1..]) && Distinct(users[1..]))
  }

  /** `users[conn]`. */
  function Lookup(users: seq<Member>, c: ConnId): (r: Option<string>)
    ensures r.Some? <==> c in Conns(users)
  {
    if users == [] then None
    else if users[0].conn == c then Some(users[0].userId)
    else Lookup(users[1..], c)
  }

  /** `users[conn] = userId`. */
  function Put(users: seq<Member>, c: ConnId, id: string): (r: seq<Member>)
    ensures Conns(r) == Conns(users) + {c}
    ensures Lookup(r, c) == Some(id)
    ensures forall d :: d != c ==> Lookup(r, d) == Lookup(users, d)
    ensures Distinct(users) ==> Distinct(r)
    ensures c !in Conns(users) ==> r == users + [Member(c, id)]
    ensures c in Conns(users) ==> |r| == |users|
  {
    if users == [] then [Member(c, id)]
    else if users[0].conn == c then [Member(c, id)] + users[1..]
    else [users[0]] + Put(users[1..], c, id)
  }

  /** `delete users[conn]`. */
  function Remove(users: seq<Member>, c: ConnId): (r: seq<Member>)
    ensures Conns(r) == Conns(users) - {c}
    ensures Lookup(r, c) == None
    ensures forall d :: d != c ==> Lookup(r, d) == Lookup(users, d)
    ensures Distinct(users) ==> Distinct(r)
    ensures r == [] <==> Conns(users) <= {c}
  {
    if users == [] then []
    else if users[0].conn == c then Remove(users[1..], c)
    else [users[0]] + Remove(users[1..], c)
  }

  /** `Object.values(users)`: the identities in key order. */
  function Ids(users: seq<Member>): (r: seq<string>)
    ensures |r| == |users|
    ensures forall i :: 0 <= i < |users| ==> r[i] == users[i].userId
  {
    seq(|users|, i requires 0 <= i < |users| => users[i].userId)
  }

  // ---------------------------------------------------------------------------
  // State
  // ---------------------------------------------------------------------------

  /** The chat log keeps this many of the most recent messages. */
  const MaxMessages: nat := 100

  datatype Room = Room(strokes: seq<Stroke>, users: seq<Member>, messages: seq<Message>)

  const EmptyRoom := Room([], [], [])

  /**
    The whole server: the room table, the transport's rooms (which sockets a
    broadcast to a room id reaches), the `currentRoom` variable of every
    connected socket's handler closure, and the ids of sockets that have
    disconnected (the transport never hands out an id twice).
   */
  datatype Server = Server(
    rooms: map<RoomId, Room>,
    transport: map<RoomId, set<ConnId>>,
    sessions: map<ConnId, Option<RoomId>>,
    retired: set<ConnId>)

  const Initial := Server(map[], map[], map[], {})

  // ---------------------------------------------------------------------------
  // Events and outbound messages
  // ---------------------------------------------------------------------------

  /** One inbound socket event. Missing string fields are the empty string. */
  datatype Event =
    | Connect
    | JoinRoom(roomId: RoomId, userId: string)
    | GetCanvas(roomId: RoomId)
    | DrawStroke(roomId: RoomId, path: string, color: string, strokeWidth: int, isEraser: Option<bool>)
    | DrawingMove(roomId: RoomId, path: string, color: string, strokeWidth: int, isEraser: Option<bool>)
    | UndoStroke(roomId: RoomId)
    | ClearCanvas(roomId: RoomId)
    | SendMessage(roomId: RoomId, message: string, userId: string, timestamp: int)
    | CheckRoom(roomId: RoomId)
    | Disconnect

  /**
    Who receives an outbound message: the sending socket alone
    (`socket.emit` or the acknowledgement callback), every other socket in a
    transport room (`socket.to(room)`), or every socket in it (`io.to(room)`).
   */
  datatype Target = ToSender | ToOthers(room: RoomId) | ToRoom(room: RoomId)

  datatype Payload =
    | LoadCanvas(strokes: seq<Stroke>)
    | LoadMessages(messages: seq<Message>)
    | RoomUsers(userIds: seq<string>)
    | UserJoined(joined: string)
    | UserLeft(left: string)
    | DrawStrokeOut(stroke: Stroke)
    | DrawingMoveOut(preview: Stroke)
    | UndoStrokeOut
    | ClearCanvasOut
    | ReceiveMessage(msg: Message)
    | RoomExists(answer: bool)

  datatype Outbound = Outbound(target: Target, payload: Payload)

  datatype Reply = Reply(next: Server, out: seq<Outbound>)

  function TransportRoom(t: map<RoomId, set<ConnId>>, r: RoomId): set<ConnId>
  {
    if r in t then t[r] else {}
  }

  /** The sockets a message with the given target reaches. */
  function Recipients(t: map<RoomId, set<ConnId>>, sender: ConnId, target: Target): set<ConnId>
  {
    match target
    case ToSender => {sender}
    case ToOthers(r) => TransportRoom(t, r) - {sender}
    case ToRoom(r) => TransportRoom(t, r)
  }

  /** `socket.join(room)`. */
  function JoinTransport(t: map<RoomId, set<ConnId>>, r: RoomId, c: ConnId): (t': map<RoomId, set<ConnId>>)
    ensures t'.Keys == t.Keys + {r}
    ensures t'[r] == TransportRoom(t, r) + {c}
    ensures forall q :: q in t && q != r ==> t'[q] == t[q]
  {
    t[r := TransportRoom(t, r) + {c}]
  }

  /** A disconnecting socket leaves every transport room; empty rooms vanish. */
  function LeaveTransport(t: map<RoomId, set<ConnId>>, c: ConnId): (t': map<RoomId, set<ConnId>>)
    ensures forall q :: q in t' <==> q in t && t[q] - {c} != {}
    ensures forall q :: q in t' ==> t'[q] == t[q] - {c}
  {
    map q | q in t && t[q] - {c} != {} :: t[q] - {c}
  }

  // ---------------------------------------------------------------------------
  // Handlers (the `connection` callback's event handlers)
  // ---------------------------------------------------------------------------

  /**
    The identity recorded for a socket in a room, falling back to the socket
    id: `rooms[roomId]?.users[socket.id] || socket.id`.
   */
  function Author(s: Server, r: RoomId, c: ConnId): (a: string)
    ensures (r in s.rooms && Lookup(s.rooms[r].users, c).Some? && Lookup(s.rooms[r].users, c).value != "")
              ==> a == Lookup(s.rooms[r].users, c).value
    ensures !(r in s.rooms && Lookup(s.rooms[r].users, c).Some?) ==> a == c
  {
    if r in s.rooms then OrElse(Lookup(s.rooms[r].users, c).GetOr(""), c) else c
  }

  /** `join-room`: register the socket, create the room if absent, send catch-up. */
  function HandleJoin(s: Server, c: ConnId, r: RoomId, userId: string): (rep: Reply)
    ensures r in rep.next.rooms && rep.next.rooms.Keys == s.rooms.Keys + {r}
    ensures r !in s.rooms ==> rep.next.rooms[r].strokes == [] && rep.next.rooms[r].messages == []
    ensures r in s.rooms ==>
              rep.next.rooms[r].strokes == s.rooms[r].strokes && rep.next.rooms[r].messages == s.rooms[r].messages
    ensures Lookup(rep.next.rooms[r].users, c) == Some(OrElse(userId, c))
    ensures forall d :: d != c ==> Lookup(rep.next.rooms[r].users, d) == (if r in s.rooms then Lookup(s.rooms[r].users, d) else None)
    ensures forall q :: q in s.rooms && q != r ==> rep.next.rooms[q] == s.rooms[q]
    ensures rep.next.sessions == s.sessions[c := Some(r)]
    ensures r in rep.next.transport && c in rep.next.transport[r]
    ensures rep.out == [
              Outbound(ToSender, LoadCanvas(rep.next.rooms[r].strokes)),
              Outbound(ToSender, LoadMessages(rep.next.rooms[r].messages)),
              Outbound(ToSender, RoomUsers(Ids(rep.next.rooms[r].users))),
              Outbound(ToOthers(r), UserJoined(OrElse(userId, c)))]
  {
    var id := OrElse(userId, c);
    var room := if r in s.rooms then s.rooms[r] else EmptyRoom;
    var room' := room.(users := Put(room.users, c, id));
    var s' := s.(rooms := s.rooms[r := room'],
                 transport := JoinTransport(s.transport, r, c),
                 sessions := s.sessions[c := Some(r)]);
    Reply(s', [
      Outbound(ToSender, LoadCanvas(room'.strokes)),
      Outbound(ToSender, LoadMessages(room'.messages)),
      Outbound(ToSender, RoomUsers(Ids(room'.users))),
      Outbound(ToOthers(r), UserJoined(id))])
  }

  /** `get-canvas`: resend the stroke log, only when the room exists. */
  function HandleGetCanvas(s: Server, r: RoomId): (rep: Reply)
    ensures rep.next == s
    ensures r in s.rooms ==> rep.out == [Outbound(ToSender, LoadCanvas(s.rooms[r].strokes))]
    ensures r !in s.rooms ==> rep.out == []
  {
    if r in s.rooms then Reply(s, [Outbound(ToSender, LoadCanvas(s.rooms[r].strokes))])
    else Reply(s, [])
  }

  /** The record `draw-stroke` and `drawing-move` build from their payload. */
  function StrokeData(s: Server, c: ConnId, r: RoomId, path: string, color: string, width: int, isEraser: Option<bool>): Stroke
  {
    Stroke(path, color, width, Author(s, r, c), isEraser.GetOr(false))
  }

  /** `draw-stroke`: append to the log of an existing room, relay to the others. */
  function HandleDrawStroke(s: Server, c: ConnId, r: RoomId, path: string, color: string, width: int, isEraser: Option<bool>): (rep: Reply)
    ensures rep.next.rooms.Keys == s.rooms.Keys
    ensures rep.next.transport == s.transport && rep.next.sessions == s.sessions && rep.next.retired == s.retired
    ensures r in s.rooms ==>
              && rep.next.rooms[r].strokes == s.rooms[r].strokes + [StrokeData(s, c, r, path, color, width, isEraser)]
              && rep.next.rooms[r].users == s.rooms[r].users
              && rep.next.rooms[r].messages == s.rooms[r].messages
    ensures forall q :: q in s.rooms && q != r ==> rep.next.rooms[q] == s.rooms[q]
    ensures r !in s.rooms ==> rep.next == s
    ensures rep.out == [Outbound(ToOthers(r), DrawStrokeOut(StrokeData(s, c, r, path, color, width, isEraser)))]
  {
    var stroke := StrokeData(s, c, r, path, color, width, isEraser);
    var s' := if r in s.rooms
              then s.(rooms := s.rooms[r := s.rooms[r].(strokes := s.rooms[r].strokes + [stroke])])
              else s;
    Reply(s', [Outbound(ToOthers(r), DrawStrokeOut(stroke))])
  }

  /** `drawing-move`: a live preview, relayed to the others and never stored. */
  function HandleDrawingMove(s: Server, c: ConnId, r: RoomId, path: string, color: string, width: int, isEraser: Option<bool>): (rep: Reply)
    ensures rep.next == s
    ensures |rep.out| == 1 && rep.out[0].target == ToOthers(r) && rep.out[0].payload.DrawingMoveOut?
    ensures var pv := rep.out[0].payload.preview;
            && pv.path == path && pv.color == color && pv.strokeWidth == width
            && pv.userId == Author(s, r, c)
            && pv.isEraser == (isEraser == Some(true))
  {
    Reply(s, [Outbound(ToOthers(r), DrawingMoveOut(StrokeData(s, c, r, path, color, width, isEraser)))])
  }

  /** `undo-stroke`: pop the last stroke if there is one; always relay. */
  function HandleUndo(s: Server, r: RoomId): (rep: Reply)
    ensures rep.next.rooms.Keys == s.rooms.Keys
    ensures rep.next.transport == s.transport && rep.next.sessions == s.sessions && rep.next.retired == s.retired
    ensures r in s.rooms && s.rooms[r].strokes != [] ==>
              && rep.next.rooms[r].strokes + [s.rooms[r].strokes[|s.rooms[r].strokes| - 1]] == s.rooms[r].strokes
              && rep.next.rooms[r].users == s.rooms[r].users
              && rep.next.rooms[r].messages == s.rooms[r].messages
    ensures !(r in s.rooms && s.rooms[r].strokes != []) ==> rep.next == s
    ensures forall q :: q in s.rooms && q != r ==> rep.next.rooms[q] == s.rooms[q]
    ensures rep.out == [Outbound(ToOthers(r), UndoStrokeOut)]
  {
    var s' := if r in s.rooms && |s.rooms[r].strokes| > 0
              then s.(rooms := s.rooms[r := s.rooms[r].(strokes := s.rooms[r].strokes[..|s.rooms[r].strokes| - 1])])
              else s;
    Reply(s', [Outbound(ToOthers(r), UndoStrokeOut)])
  }

  /** `clear-canvas`: empty the stroke log; tell everyone, sender included. */
  function HandleClear(s: Server, r: RoomId): (rep: Reply)
    ensures rep.next.rooms.Keys == s.rooms.Keys
    ensures rep.next.transport == s.transport && rep.next.sessions == s.sessions && rep.next.retired == s.retired
    ensures r in s.rooms ==>
              && rep.next.rooms[r].strokes == []
              && rep.next.rooms[r].users == s.rooms[r].users
              && rep.next.rooms[r].messages == s.rooms[r].messages
    ensures forall q :: q in s.rooms && q != r ==> rep.next.rooms[q] == s.rooms[q]
    ensures rep.out == [Outbound(ToRoom(r), ClearCanvasOut)]
  {
    var s' := if r in s.rooms then s.(rooms := s.rooms[r := s.rooms[r].(strokes := [])]) else s;
    Reply(s', [Outbound(ToRoom(r), ClearCanvasOut)])
  }

  /** `messages.slice(-100)` once the log is longer than 100. */
  function KeepLast(log: seq<Message>): (r: seq<Message>)
    ensures |r| <= MaxMessages
    ensures |r| == if |log| > MaxMessages then MaxMessages else |log|
    ensures r == log[|log| - |r|..]
  {
    if |log| > MaxMessages then log[|log| - MaxMessages..] else log
  }

  /** Push one message and trim the log to its last 100 entries. */
  function AppendMessage(log: seq<Message>, m: Message): (r: seq<Message>)
    ensures |r| <= MaxMessages
    ensures |r| == if |log| >= MaxMessages then MaxMessages else |log| + 1
    ensures r[|r| - 1] == m
    ensures r[..|r| - 1] == log[|log| + 1 - |r|..]
    ensures |log| < MaxMessages ==> r == log + [m]
  {
    var r := KeepLast(log + [m]);
    assert r[..|r| - 1] == (log + [m])[|log| + 1 - |r|..|log|];
    r
  }

  /** `send-message`: store in an existing room, relay to the others. */
  function HandleSendMessage(s: Server, r: RoomId, text: string, userId: string, timestamp: int): (rep: Reply)
    ensures rep.next.rooms.Keys == s.rooms.Keys
    ensures rep.next.transport == s.transport && rep.next.sessions == s.sessions && rep.next.retired == s.retired
    ensures r in s.rooms ==>
              && rep.next.rooms[r].messages == AppendMessage(s.rooms[r].messages, Message(text, userId, timestamp))
              && rep.next.rooms[r].strokes == s.rooms[r].strokes
              && rep.next.rooms[r].users == s.rooms[r].users
    ensures r !in s.rooms ==> rep.next == s
    ensures forall q :: q in s.rooms && q != r ==> rep.next.rooms[q] == s.rooms[q]
    ensures rep.out == [Outbound(ToOthers(r), ReceiveMessage(Message(text, userId, timestamp)))]
  {
    var m := Message(text, userId, timestamp);
    var s' := if r in s.rooms
              then s.(rooms := s.rooms[r := s.rooms[r].(messages := AppendMessage(s.rooms[r].messages, m))])
              else s;
    Reply(s', [Outbound(ToOthers(r), ReceiveMessage(m))])
  }

  /** `check-room`: the record exists and the transport room is not empty. */
  function HandleCheckRoom(s: Server, r: RoomId): (rep: Reply)
    ensures rep.next == s
    ensures rep.out == [Outbound(ToSender, RoomExists(r in s.rooms && |TransportRoom(s.transport, r)| > 0))]
  {
    Reply(s, [Outbound(ToSender, RoomExists(r in s.rooms && |TransportRoom(s.transport, r)| > 0))])
  }

  /**
    `disconnect`: the socket leaves every transport room, but only the room it
    joined last loses its member entry; that room is deleted once no entry is
    left, and `user-left` goes out only when an identity was recorded.
   */
  function HandleDisconnect(s: Server, c: ConnId): (rep: Reply)
    requires c in s.sessions
    ensures rep.next.sessions == s.sessions - {c}
    ensures rep.next.retired == s.retired + {c}
    ensures rep.next.transport == LeaveTransport(s.transport, c)
    ensures forall q :: q in s.rooms && s.sessions[c] != Some(q) ==> q in rep.next.rooms && rep.next.rooms[q] == s.rooms[q]
    ensures forall q :: q in rep.next.rooms ==> q in s.rooms
    ensures forall q :: s.sessions[c] == Some(q) && q != "" && q in s.rooms ==>
              && (q in rep.next.rooms <==> !(Conns(s.rooms[q].users) <= {c}))
              && (q in rep.next.rooms ==> rep.next.rooms[q] == s.rooms[q].(users := Remove(s.rooms[q].users, c)))
              && rep.out == (if Lookup(s.rooms[q].users, c).GetOr("") != ""
                             then [Outbound(ToOthers(q), UserLeft(Lookup(s.rooms[q].users, c).value))] else [])
    ensures !(s.sessions[c].Some? && s.sessions[c].value != "" && s.sessions[c].value in s.rooms) ==>
              rep.next.rooms == s.rooms && rep.out == []
  {
    var base := s.(transport := LeaveTransport(s.transport, c),
                   sessions := s.sessions - {c},
                   retired := s.retired + {c});
    var cur := s.sessions[c];
    if cur.Some? && cur.value != "" && cur.value in s.rooms then
      var q := cur.value;
      var room := s.rooms[q];
      var uid := Lookup(room.users, c);
      var users' := Remove(room.users, c);
      var rooms' := if users' == [] then s.rooms - {q} else s.rooms[q := room.(users := users')];
      var out := if uid.GetOr("") != "" then [Outbound(ToOthers(q), UserLeft(uid.value))] else [];
      Reply(base.(rooms := rooms'), out)
    else
      Reply(base, [])
  }

  /**
    One event from one socket. A new id gets a handler closure on `Connect`;
    events from a socket that is not connected reach no handler.
   */
  function Step(s: Server, c: ConnId, ev: Event): Reply
  {
    if ev.Connect? then
      if c in s.sessions || c in s.retired then Reply(s, [])
      else Reply(s.(sessions := s.sessions[c := None]), [])
    else if c !in s.sessions then Reply(s, [])
    else
      match ev
      case JoinRoom(r, u) => HandleJoin(s, c, r, u)
      case GetCanvas(r) => HandleGetCanvas(s, r)
      case DrawStroke(r, p, col, w, e) => HandleDrawStroke(s, c, r, p, col, w, e)
      case DrawingMove(r, p, col, w, e) => HandleDrawingMove(s, c, r, p, col, w, e)
      case UndoStroke(r) => HandleUndo(s, r)
      case ClearCanvas(r) => HandleClear(s, r)
      case SendMessage(r, m, u, t) => HandleSendMessage(s, r, m, u, t)
      case CheckRoom(r) => HandleCheckRoom(s, r)
      case Disconnect => HandleDisconnect(s, c)
  }

  datatype Input = Input(conn: ConnId, event: Event)

  /** Events handled one after another, each to completion. */
  function Run(s: Server, inputs: seq<Input>): Server
    decreases |inputs|
  {
    if inputs == [] then s else Run(Step(s, inputs[0].conn, inputs[0].event).next, inputs[1..])
  }
}

=== FILE: room_server_properties.dfy ===
/**
  Properties of the room-state relay: the invariant every event preserves,
  what `check-room` answers in terms of the room table, replay fidelity of the
  stroke log, the chat cap over many messages, who a broadcast reaches, and
  the room lifecycle on disconnect (including the rooms a socket joined
  before its last one, which keep its entry).
 */
module RoomServerProperties {
  import opened Protocol
  import opened RoomServer

  // ---------------------------------------------------------------------------
  // The state invariant
  // ---------------------------------------------------------------------------

  /** Every room record has at least one member entry, and no key twice. */
  ghost predicate RoomsInhabited(s: Server)
  {
    forall r :: r in s.rooms ==> s.rooms[r].users != [] && Distinct(s.rooms[r].users)
  }

  /** Every member entry belongs to a connected or a disconnected socket. */
  ghost predicate MembersKnown(s: Server)
  {
    forall r :: r in s.rooms ==> Conns(s.rooms[r].users) <= s.sessions.Keys + s.retired
  }

  /** A connected socket's last joined room exists and lists it. */
  ghost predicate SessionsJoined(s: Server)
  {
    forall c :: c in s.sessions && s.sessions[c].Some? ==>
      s.sessions[c].value in s.rooms && c in Conns(s.rooms[s.sessions[c].value].users)
  }

  /** A connected socket listed in a room is in that transport room. */
  ghost predicate LiveMembersInTransport(s: Server)
  {
    forall r, c :: r in s.rooms && c in s.sessions && c in Conns(s.rooms[r].users) ==> c in TransportRoom(s.transport, r)
  }

  /** Transport rooms are non-empty, hold connected sockets, and only listed members. */
  ghost predicate TransportSound(s: Server)
  {
    forall r :: r in s.transport ==>
      && s.transport[r] != {}
      && r in s.rooms
      && s.transport[r] <= s.sessions.Keys
      && s.transport[r] <= Conns(s.rooms[r].users)
  }

  /** No room holds more than `MaxMessages` chat messages. */
  ghost predicate LogsCapped(s: Server)
  {
    forall r :: r in s.rooms ==> |s.rooms[r].messages| <= MaxMessages
  }

  ghost predicate Valid(s: Server)
  {
    && RoomsInhabited(s)
    && MembersKnown(s)
    && SessionsJoined(s)
    && LiveMembersInTransport(s)
    && TransportSound(s)
    && s.sessions.Keys !! s.retired
    && LogsCapped(s)
  }

  /** A connected socket that has an entry in the room's member map. */
  ghost predicate LiveMember(s: Server, r: RoomId, c: ConnId)
  {
    r in s.rooms && c in s.sessions && c in Conns(s.rooms[r].users)
  }

  lemma InitialValid()
    ensures Valid(Initial)
  {
  }

  /** Handlers that touch only stroke and chat logs keep the invariant. */
  lemma LogOnlyChangeKeepsValid(s: Server, s': Server)
    requires Valid(s)
    requires s'.rooms.Keys == s.rooms.Keys
    requires forall r :: r in s.rooms ==> s'.rooms[r].users == s.rooms[r].users
    requires s'.transport == s.transport && s'.sessions == s.sessions && s'.retired == s.retired
    requires LogsCapped(s')
    ensures Valid(s')
  {
  }

  lemma ConnectKeepsValid(s: Server, c: ConnId)
    requires Valid(s)
    ensures Valid(Step(s, c, Connect).next)
  {
    if c !in s.sessions && c !in s.retired {
      var s' := Step(s, c, Connect).next;
      assert s'.sessions == s.sessions[c := None];
      forall r | r in s'.rooms
        ensures c !in Conns(s'.rooms[r].users)
      {
      }
    }
  }

  /** The state `join-room` leaves when the socket is recorded under `id`. */
  function JoinNext(s: Server, c: ConnId, r: RoomId, id: string): Server
  {
    var room := if r in s.rooms then s.rooms[r] else EmptyRoom;
    Server(s.rooms[r := room.(users := Put(room.users, c, id))],
           JoinTransport(s.transport, r, c),
           s.sessions[c := Some(r)],
           s.retired)
  }

  lemma JoinState(s: Server, c: ConnId, r: RoomId, u: string)
    ensures HandleJoin(s, c, r, u).next == JoinNext(s, c, r, OrElse(u, c))
  {
  }

  /** After a join every room record still has a member, keys stay unique, and every entry is a known socket. */
  lemma JoinKeepsRooms(s: Server, c: ConnId, r: RoomId, id: string)
    requires Valid(s) && c in s.sessions
    ensures RoomsInhabited(JoinNext(s, c, r, id)) && MembersKnown(JoinNext(s, c, r, id))
  {
    var s' := JoinNext(s, c, r, id);
    forall q | q in s'.rooms
      ensures s'.rooms[q].users != [] && Distinct(s'.rooms[q].users)
      ensures Conns(s'.rooms[q].users) <= s'.sessions.Keys + s'.retired
    {
      if q != r {
        assert s'.rooms[q] == s.rooms[q];
      }
    }
  }

  /** After a join every connected member is in its transport room. */
  lemma JoinLiveMembers(s: Server, c: ConnId, r: RoomId, id: string)
    requires LiveMembersInTransport(s) && c in s.sessions
    ensures LiveMembersInTransport(JoinNext(s, c, r, id))
  {
    var room := if r in s.rooms then s.rooms[r] else EmptyRoom;
    var s' := JoinNext(s, c, r, id);
    forall q, d | q in s'.rooms && d in s'.sessions && d in Conns(s'.rooms[q].users)
      ensures d in TransportRoom(s'.transport, q)
    {
      if q == r {
        assert Conns(s'.rooms[r].users) == Conns(room.users) + {c};
        if d != c {
          assert r in s.rooms && d in Conns(s.rooms[r].users);
          assert d in TransportRoom(s.transport, r);
        }
      } else {
        assert s'.rooms[q] == s.rooms[q];
        assert d in TransportRoom(s.transport, q);
        assert TransportRoom(s'.transport, q) == TransportRoom(s.transport, q);
      }
    }
  }

  /** After a join, transport rooms hold only connected sockets that are listed members. */
  lemma JoinKeepsTransportSound(s: Server, c: ConnId, r: RoomId, id: string)
    requires Valid(s) && c in s.sessions
    ensures TransportSound(JoinNext(s, c, r, id))
  {
    var room := if r in s.rooms then s.rooms[r] else EmptyRoom;
    var s' := JoinNext(s, c, r, id);
    forall q | q in s'.transport
      ensures s'.transport[q] != {} && q in s'.rooms
      ensures s'.transport[q] <= s'.sessions.Keys && s'.transport[q] <= Conns(s'.rooms[q].users)
    {
      if q == r {
        assert Conns(s'.rooms[r].users) == Conns(room.users) + {c};
      } else {
        assert s'.rooms[q] == s.rooms[q];
        assert s'.transport[q] == s.transport[q];
      }
    }
  }

  /** After a join, each socket's current room exists and lists it. */
  lemma JoinKeepsSessions(s: Server, c: ConnId, r: RoomId, id: string)
    requires Valid(s) && c in s.sessions
    ensures SessionsJoined(JoinNext(s, c, r, id))
  {
    var room := if r in s.rooms then s.rooms[r] else EmptyRoom;
    var s' := JoinNext(s, c, r, id);
    forall d | d in s'.sessions && s'.sessions[d].Some?
      ensures s'.sessions[d].value in s'.rooms && d in Conns(s'.rooms[s'.sessions[d].value].users)
    {
      if d != c {
        var q := s.sessions[d].value;
        if q == r {
          assert Conns(s'.rooms[r].users) == Conns(room.users) + {c};
        } else {
          assert s'.rooms[q] == s.rooms[q];
        }
      }
    }
  }

  lemma JoinKeepsValid(s: Server, c: ConnId, r: RoomId, u: string)
    requires Valid(s) && c in s.sessions
    ensures Valid(HandleJoin(s, c, r, u).next)
  {
    var id := OrElse(u, c);
    JoinState(s, c, r, u);
    JoinKeepsRooms(s, c, r, id);
    JoinLiveMembers(s, c, r, id);
    JoinKeepsTransportSound(s, c, r, id);
    JoinKeepsSessions(s, c, r, id);
  }

  lemma DisconnectKeepsValid(s: Server, c: ConnId)
    requires Valid(s) && c in s.sessions
    ensures Valid(HandleDisconnect(s, c).next)
  {
    var s' := HandleDisconnect(s, c).next;
    var cur := s.sessions[c];
    forall q | q in s'.rooms
      ensures s'.rooms[q].users != [] && Distinct(s'.rooms[q].users)
      ensures Conns(s'.rooms[q].users) <= s'.sessions.Keys + s'.retired
    {
    }
    forall d | d in s'.sessions && s'.sessions[d].Some?
      ensures s'.sessions[d].value in s'.rooms && d in Conns(s'.rooms[s'.sessions[d].value].users)
    {
      var q := s.sessions[d].value;
      assert d in Conns(s.rooms[q].users);
      if cur == Some(q) && q != "" {
        assert d in Conns(Remove(s.rooms[q].users, c));
      }
    }
    forall q, d | q in s'.rooms && d in s'.sessions && d in Conns(s'.rooms[q].users)
      ensures d in TransportRoom(s'.transport, q)
    {
      assert d in Conns(s.rooms[q].users);
      assert d in TransportRoom(s.transport, q);
    }
    forall q | q in s'.transport
      ensures s'.transport[q] != {} && q in s'.rooms
      ensures s'.transport[q] <= s'.sessions.Keys && s'.transport[q] <= Conns(s'.rooms[q].users)
    {
      var d :| d in s'.transport[q];
      assert d in s.transport[q] && d != c;
      if cur == Some(q) && q != "" {
        assert d in Conns(Remove(s.rooms[q].users, c));
      }
    }
  }

  /** `draw-stroke`, `undo-stroke`, `clear-canvas` and `send-message` keep the invariant. */
  lemma LogEventKeepsValid(s: Server, c: ConnId, ev: Event)
    requires Valid(s) && c in s.sessions
    requires ev.DrawStroke? || ev.UndoStroke? || ev.ClearCanvas? || ev.SendMessage?
    ensures Valid(Step(s, c, ev).next)
  {
    match ev
    case DrawStroke(r, p, col, w, e) =>
      assert Step(s, c, ev) == HandleDrawStroke(s, c, r, p, col, w, e);
      LogOnlyChangeKeepsValid(s, HandleDrawStroke(s, c, r, p, col, w, e).next);
    case UndoStroke(r) =>
      assert Step(s, c, ev) == HandleUndo(s, r);
      LogOnlyChangeKeepsValid(s, HandleUndo(s, r).next);
    case ClearCanvas(r) =>
      assert Step(s, c, ev) == HandleClear(s, r);
      LogOnlyChangeKeepsValid(s, HandleClear(s, r).next);
    case SendMessage(r, m, u, t) =>
      assert Step(s, c, ev) == HandleSendMessage(s, r, m, u, t);
      LogOnlyChangeKeepsValid(s, HandleSendMessage(s, r, m, u, t).next);
  }

  /** Every event keeps the invariant. */
  lemma StepKeepsValid(s: Server, c: ConnId, ev: Event)
    requires Valid(s)
    ensures Valid(Step(s, c, ev).next)
  {
    if ev.Connect? {
      ConnectKeepsValid(s, c);
    } else if c in s.sessions {
      match ev
      case JoinRoom(r, u) =>
        assert Step(s, c, ev) == HandleJoin(s, c, r, u);
        JoinKeepsValid(s, c, r, u);
      case Disconnect =>
        assert Step(s, c, ev) == HandleDisconnect(s, c);
        DisconnectKeepsValid(s, c);
      case DrawStroke(_, _, _, _, _) => LogEventKeepsValid(s, c, ev);
      case UndoStroke(_) => LogEventKeepsValid(s, c, ev);
      case ClearCanvas(_) => LogEventKeepsValid(s, c, ev);
      case SendMessage(_, _, _, _) => LogEventKeepsValid(s, c, ev);
      case GetCanvas(_) =>
      case DrawingMove(_, _, _, _, _) =>
      case CheckRoom(_) =>
    }
  }

  lemma {:induction false} RunKeepsValid(s: Server, inputs: seq<Input>)
    requires Valid(s)
    ensures Valid(Run(s, inputs))
    decreases |inputs|
  {
    if inputs != [] {
      StepKeepsValid(s, inputs[0].conn, inputs[0].event);
      RunKeepsValid(Step(s, inputs[0].conn, inputs[0].event).next, inputs[1..]);
    }
  }

  /** Every reachable state satisfies the invariant. */
  lemma ReachableValid(inputs: seq<Input>)
    ensures Valid(Run(Initial, inputs))
  {
    InitialValid();
    RunKeepsValid(Initial, inputs);
  }

  // ---------------------------------------------------------------------------
  // Room lifecycle
  // ---------------------------------------------------------------------------

  /**
    `check-room` answers true exactly when the room record lists a socket
    that is still connected.
   */
  lemma CheckRoomIffLiveMember(s: Server, c: ConnId, r: RoomId)
    requires Valid(s) && c in s.sessions
    ensures Step(s, c, CheckRoom(r)).out == [Outbound(ToSender, RoomExists(exists d :: LiveMember(s, r, d)))]
  {
    var answer := r in s.rooms && |TransportRoom(s.transport, r)| > 0;
    if answer {
      var d :| d in s.transport[r];
      assert LiveMember(s, r, d);
    }
    if exists d :: LiveMember(s, r, d) {
      var d :| LiveMember(s, r, d);
      assert d in TransportRoom(s.transport, r);
    }
  }

  /** Every room record has a member entry: an empty room never lingers. */
  lemma RoomsHaveMembers(s: Server, r: RoomId)
    requires Valid(s) && r in s.rooms
    ensures exists c :: c in Conns(s.rooms[r].users)
  {
    var m := s.rooms[r].users[0];
    assert m.conn in Conns(s.rooms[r].users);
  }

  /**
    When the last member of its room disconnects, the room record is gone, so
    a later join starts from empty logs.
   */
  lemma LastLeaveDeletesRoom(s: Server, c: ConnId, r: RoomId, d: ConnId, u: string)
    requires Valid(s) && c in s.sessions && s.sessions[c] == Some(r) && r != ""
    requires Conns(s.rooms[r].users) == {c}
    requires d in s.sessions && d != c
    ensures r !in Step(s, c, Disconnect).next.rooms
    ensures var s' := Step(s, c, Disconnect).next;
            var rep := Step(s', d, JoinRoom(r, u));
            rep.out[0] == Outbound(ToSender, LoadCanvas([])) && rep.out[1] == Outbound(ToSender, LoadMessages([]))
  {
    assert Step(s, c, Disconnect) == HandleDisconnect(s, c);
    var s' := HandleDisconnect(s, c).next;
    assert r !in s'.rooms && d in s'.sessions;
    JoinAbsentRoomIsEmpty(s', d, r, u);
  }

  lemma JoinAbsentRoomIsEmpty(s: Server, d: ConnId, r: RoomId, u: string)
    requires r !in s.rooms && d in s.sessions
    ensures var rep := Step(s, d, JoinRoom(r, u));
            rep.out[0] == Outbound(ToSender, LoadCanvas([])) && rep.out[1] == Outbound(ToSender, LoadMessages([]))
  {
    assert Step(s, d, JoinRoom(r, u)) == HandleJoin(s, d, r, u);
  }

  /**
    The exception to cleanup: a socket that joined room `a` and later another
    room keeps its entry in `a` after it disconnects, and `a` keeps its record
    even though the socket is no longer in the transport room.
   */
  lemma EarlierRoomKeepsStaleEntry(s: Server, c: ConnId, a: RoomId)
    requires c in s.sessions && s.sessions[c] != Some(a)
    requires a in s.rooms && c in Conns(s.rooms[a].users)
    ensures var s' := Step(s, c, Disconnect).next;
            && a in s'.rooms
            && c in Conns(s'.rooms[a].users)
            && c !in TransportRoom(s'.transport, a)
            && c in s'.retired
  {
  }

  /** The state after socket "x" connects and joins room "1" and then room "2" as "ann". */
  lemma TwoJoins()
    ensures var s1 := Step(Initial, "x", Connect).next;
            var s2 := Step(s1, "x", JoinRoom("1", "ann")).next;
            var s3 := Step(s2, "x", JoinRoom("2", "ann")).next;
            && s3.rooms.Keys == {"1", "2"}
            && s3.rooms["1"].users == [Member("x", "ann")] && s3.rooms["2"].users == [Member("x", "ann")]
            && s3.transport.Keys == {"1", "2"} && s3.transport["1"] == {"x"} && s3.transport["2"] == {"x"}
            && s3.sessions == map["x" := Some("2")]
  {
    assert "1" != "2" by {
      assert "1"[0] != "2"[0];
    }
    var s1 := Step(Initial, "x", Connect).next;
    assert s1.sessions == map["x" := None] && s1.rooms == map[] && s1.transport == map[];
    var s2 := HandleJoin(s1, "x", "1", "ann").next;
    assert s2.rooms.Keys == {"1"} && s2.rooms["1"].users == [Member("x", "ann")];
    assert s2.transport.Keys == {"1"} && s2.transport["1"] == {"x"};
    var s3 := HandleJoin(s2, "x", "2", "ann").next;
    assert s3.rooms["1"] == s2.rooms["1"] && s3.rooms["2"].users == [Member("x", "ann")];
  }

  /** Socket "x", last in room "2" and also listed in room "1", disconnects. */
  lemma DisconnectFromSecond(s: Server)
    requires s.rooms.Keys == {"1", "2"}
    requires s.rooms["1"].users == [Member("x", "ann")] && s.rooms["2"].users == [Member("x", "ann")]
    requires s.transport.Keys == {"1", "2"} && s.transport["1"] == {"x"} && s.transport["2"] == {"x"}
    requires s.sessions == map["x" := Some("2")]
    ensures var s' := Step(s, "x", Disconnect).next;
            && "1" in s'.rooms && s'.rooms["1"].users == [Member("x", "ann")]
            && "2" !in s'.rooms
            && s'.transport == map[]
  {
    assert "1" != "2" by {
      assert "1"[0] != "2"[0];
    }
    var s' := HandleDisconnect(s, "x").next;
    assert Step(s, "x", Disconnect).next == s';
    assert Conns(s.rooms["2"].users) <= {"x"};
    assert s'.transport.Keys == {};
  }

  /**
    Concretely: socket "x" connects, joins room "1", then room "2", then
    disconnects. Room "2" is deleted, while room "1" keeps the stale entry
    and no transport room is left.
   */
  lemma TwoRoomsThenDisconnect()
    ensures var s1 := Step(Initial, "x", Connect).next;
            var s2 := Step(s1, "x", JoinRoom("1", "ann")).next;
            var s3 := Step(s2, "x", JoinRoom("2", "ann")).next;
            var s4 := Step(s3, "x", Disconnect).next;
            && "1" in s4.rooms && s4.rooms["1"].users == [Member("x", "ann")]
            && "2" !in s4.rooms
            && s4.transport == map[]
  {
    TwoJoins();
    DisconnectFromSecond(Step(Step(Step(Initial, "x", Connect).next, "x", JoinRoom("1", "ann")).next, "x", JoinRoom("2", "ann")).next);
  }

  // ---------------------------------------------------------------------------
  // Replay fidelity of the stroke log
  // ---------------------------------------------------------------------------

  /** The stroke `draw-stroke` input `i` stores when handled in state `s`. */
  function StrokeOf(s: Server, i: Input): Stroke
    requires i.event.DrawStroke?
  {
    StrokeData(s, i.conn, i.event.roomId, i.event.path, i.event.color, i.event.strokeWidth, i.event.isEraser)
  }

  ghost predicate DrawsInto(s: Server, r: RoomId, inputs: seq<Input>)
  {
    forall k :: 0 <= k < |inputs| ==>
      inputs[k].conn in s.sessions && inputs[k].event.DrawStroke? && inputs[k].event.roomId == r
  }

  /**
    Committed strokes sent by connected sockets to an existing room are
    appended in arrival order, and nothing but that log changes.
   */
  lemma {:induction false} ReplayFidelity(s: Server, r: RoomId, inputs: seq<Input>)
    requires r in s.rooms && DrawsInto(s, r, inputs)
    ensures var s' := Run(s, inputs);
            && s'.rooms.Keys == s.rooms.Keys
            && s'.rooms[r].strokes == s.rooms[r].strokes + seq(|inputs|, k requires 0 <= k < |inputs| => StrokeOf(s, inputs[k]))
            && s'.rooms[r].users == s.rooms[r].users
            && s'.rooms[r].messages == s.rooms[r].messages
            && s'.sessions == s.sessions && s'.transport == s.transport
    decreases |inputs|
  {
    if inputs != [] {
      var s1 := Step(s, inputs[0].conn, inputs[0].event).next;
      assert s1.rooms[r].strokes == s.rooms[r].strokes + [StrokeOf(s, inputs[0])];
      assert DrawsInto(s1, r, inputs[1..]) by {
        forall k | 0 <= k < |inputs| - 1
          ensures inputs[1..][k] == inputs[k + 1]
        {
        }
      }
      ReplayFidelity(s1, r, inputs[1..]);
      forall k | 0 <= k < |inputs| - 1
        ensures StrokeOf(s1, inputs[1..][k]) == StrokeOf(s, inputs[k + 1])
      {
        assert inputs[1..][k] == inputs[k + 1];
      }
    }
  }

  /** A socket joining after those strokes receives exactly the extended log. */
  lemma LateJoinSeesLog(s: Server, r: RoomId, inputs: seq<Input>, d: ConnId, u: string)
    requires r in s.rooms && DrawsInto(s, r, inputs) && d in s.sessions
    ensures var rep := Step(Run(s, inputs), d, JoinRoom(r, u));
            |rep.out| > 0 &&
            rep.out[0] == Outbound(ToSender, LoadCanvas(s.rooms[r].strokes + seq(|inputs|, k requires 0 <= k < |inputs| => StrokeOf(s, inputs[k]))))
  {
    ReplayFidelity(s, r, inputs);
  }

  /** Undo on an empty log leaves the state unchanged and still relays. */
  lemma UndoOnEmptyLogIsNoOp(s: Server, c: ConnId, r: RoomId)
    requires c in s.sessions && (r !in s.rooms || s.rooms[r].strokes == [])
    ensures Step(s, c, UndoStroke(r)).next == s
    ensures Step(s, c, UndoStroke(r)).out == [Outbound(ToOthers(r), UndoStrokeOut)]
  {
  }

  /** Draw then undo from the same socket restores the room. */
  lemma DrawThenUndoRestores(s: Server, c: ConnId, r: RoomId, p: string, col: string, w: int, e: Option<bool>)
    requires c in s.sessions && r in s.rooms
    ensures Step(Step(s, c, DrawStroke(r, p, col, w, e)).next, c, UndoStroke(r)).next == s
  {
    var s1 := Step(s, c, DrawStroke(r, p, col, w, e)).next;
    var st := s1.rooms[r].strokes;
    assert st[..|st| - 1] == s.rooms[r].strokes;
    assert s1.rooms[r := s1.rooms[r].(strokes := st[..|st| - 1])] == s.rooms;
  }

  // ---------------------------------------------------------------------------
  // The chat log cap
  // ---------------------------------------------------------------------------

  function AppendAll(log: seq<Message>, ms: seq<Message>): seq<Message>
    decreases |ms|
  {
    if ms == [] then log else AppendAll(AppendMessage(log, ms[0]), ms[1..])
  }

  /** Once at least 100 entries are left, dropping a prefix does not change the last 100. */
  lemma KeepLastOfSuffix(z: seq<Message>, k: nat)
    requires k <= |z| && |z| - k >= MaxMessages
    ensures KeepLast(z[k..]) == KeepLast(z)
  {
    assert z[k..][|z| - k - MaxMessages..] == z[|z| - MaxMessages..];
  }

  lemma LastOfLast(x: seq<Message>, y: seq<Message>)
    ensures KeepLast(KeepLast(x) + y) == KeepLast(x + y)
  {
    if |x| > MaxMessages {
      var k := |x| - MaxMessages;
      assert KeepLast(x) == x[k..];
      assert x[k..] + y == (x + y)[k..];
      KeepLastOfSuffix(x + y, k);
    }
  }

  lemma AppendIsKeepLast(log: seq<Message>, m: Message)
    ensures AppendMessage(log, m) == KeepLast(log + [m])
  {
  }

  lemma SplitFirst(log: seq<Message>, ms: seq<Message>)
    requires ms != []
    ensures (log + [ms[0]]) + ms[1..] == log + ms
  {
    assert ms == [ms[0]] + ms[1..];
  }

  /**
    Appending messages one by one keeps exactly the last 100 of the whole
    sequence, in arrival order.
   */
  lemma {:induction false} AppendAllKeepsLast(log: seq<Message>, ms: seq<Message>)
    requires |log| <= MaxMessages
    ensures AppendAll(log, ms) == KeepLast(log + ms)
    decreases |ms|
  {
    if ms != [] {
      var x := log + [ms[0]];
      AppendIsKeepLast(log, ms[0]);
      AppendAllKeepsLast(KeepLast(x), ms[1..]);
      LastOfLast(x, ms[1..]);
      SplitFirst(log, ms);
    }
  }

  /** 101 messages into an empty log leave the last 100. */
  lemma OneOverflow(log: seq<Message>, ms: seq<Message>)
    requires |log| <= MaxMessages && |log| + |ms| == MaxMessages + 1
    ensures AppendAll(log, ms) == (log + ms)[1..]
  {
    AppendAllKeepsLast(log, ms);
  }

  // ---------------------------------------------------------------------------
  // Fan-out
  // ---------------------------------------------------------------------------

  /** A committed stroke reaches every other connected member of the room, not the sender. */
  lemma DrawStrokeReachesOthers(s: Server, c: ConnId, r: RoomId, p: string, col: string, w: int, e: Option<bool>, d: ConnId)
    requires LiveMembersInTransport(s) && c in s.sessions
    ensures var rep := Step(s, c, DrawStroke(r, p, col, w, e));
            && |rep.out| == 1 && rep.out[0].payload.DrawStrokeOut?
            && c !in Recipients(rep.next.transport, c, rep.out[0].target)
            && (LiveMember(s, r, d) && d != c ==> d in Recipients(rep.next.transport, c, rep.out[0].target))
  {
  }

  /** `clear-canvas` reaches every connected member, the sender included. */
  lemma ClearReachesEveryone(s: Server, c: ConnId, r: RoomId, d: ConnId)
    requires LiveMembersInTransport(s) && c in s.sessions
    ensures var rep := Step(s, c, ClearCanvas(r));
            LiveMember(s, r, d) ==> d in Recipients(rep.next.transport, c, rep.out[0].target)
  {
  }

  /** `user-joined` reaches the members already connected, never the joiner. */
  lemma JoinAnnouncedToOthers(s: Server, c: ConnId, r: RoomId, u: string, d: ConnId)
    requires LiveMembersInTransport(s) && c in s.sessions
    ensures var rep := Step(s, c, JoinRoom(r, u));
            && rep.out[3].payload == UserJoined(OrElse(u, c))
            && c !in Recipients(rep.next.transport, c, rep.out[3].target)
            && (LiveMember(s, r, d) && d != c ==> d in Recipients(rep.next.transport, c, rep.out[3].target))
            && (forall k :: 0 <= k < 3 ==> rep.out[k].target == ToSender)
  {
    var rep := HandleJoin(s, c, r, u);
    assert Step(s, c, JoinRoom(r, u)) == rep;
    if LiveMember(s, r, d) && d != c {
      assert d in TransportRoom(s.transport, r);
    }
  }
}

=== FILE: text.dfy ===
/**
  Character and string helpers shared by the client-side modules: ASCII case
  mapping (the part of JavaScript's `toUpperCase`/`toLowerCase` the model
  covers), JavaScript's `trim` over its full whitespace and line-terminator
  set, and decimal rendering of natural numbers (what a template literal
  does with a non-negative integer).
 */
module Text {

  predicate IsLowerLetter(c: char) { 'a' <= c <= 'z' }

  predicate IsUpperLetter(c: char) { 'A' <= c <= 'Z' }

  predicate IsDigit(c: char) { '0' <= c <= '9' }

  function UpperChar(c: char): (u: char)
    ensures !IsLowerLetter(u)
    ensures IsLowerLetter(c) ==> u as int == c as int - 32
    ensures !IsLowerLetter(c) ==> u == c
  {
    if IsLowerLetter(c) then (c as int - 32) as char else c
  }

  function LowerChar(c: char): (l: char)
    ensures !IsUpperLetter(l)
    ensures IsUpperLetter(c) ==> l as int == c as int + 32
    ensures !IsUpperLetter(c) ==> l == c
  {
    if IsUpperLetter(c) then (c as int + 32) as char else c
  }

  /** `s.toUpperCase()` restricted to ASCII letters. */
  function Upper(s: string): (r: string)
    ensures |r| == |s|
    ensures forall i :: 0 <= i < |s| ==> r[i] == UpperChar(s[i])
  {
    seq(|s|, i requires 0 <= i < |s| => UpperChar(s[i]))
  }

  /** `s.toLowerCase()` restricted to ASCII letters. */
  function Lower(s: string): (r: string)
    ensures |r| == |s|
    ensures forall i :: 0 <= i < |s| ==> r[i] == LowerChar(s[i])
  {
    seq(|s|, i requires 0 <= i < |s| => LowerChar(s[i]))
  }

  lemma UpperIdempotent(s: string)
    ensures Upper(Upper(s)) == Upper(s)
  {
  }

  lemma UpperPrefix(s: string, n: nat)
    requires n <= |s|
    ensures Upper(s)[..n] == Upper(s[..n])
  {
  }

  /** JavaScript's WhiteSpace and LineTerminator characters, which `trim` removes. */
  predicate IsSpace(c: char)
  {
    || c == ' ' || c == '\t' || c == '\n' || c == '\r' || c == '\U{000B}' || c == '\U{000C}'
    || c == '\U{00A0}' || c == '\U{1680}' || '\U{2000}' <= c <= '\U{200A}'
    || c == '\U{2028}' || c == '\U{2029}' || c == '\U{202F}' || c == '\U{205F}'
    || c == '\U{3000}' || c == '\U{FEFF}'
  }

  function TrimStart(s: string): (r: string)
    ensures |r| <= |s| && r == s[|s| - |r|..]
    ensures r == [] || !IsSpace(r[0])
    ensures forall i :: 0 <= i < |s| - |r| ==> IsSpace(s[i])
  {
    if |s| > 0 && IsSpace(s[0]) then TrimStart(s[1..]) else s
  }

  function TrimEnd(s: string): (r: string)
    ensures |r| <= |s| && r == s[..|r|]
    ensures r == [] || !IsSpace(r[|r| - 1])
    ensures forall i :: |r| <= i < |s| ==> IsSpace(s[i])
  {
    if |s| > 0 && IsSpace(s[|s| - 1]) then TrimEnd(s[..|s| - 1]) else s
  }

  /** `s.trim()`: drops leading and trailing whitespace. */
  function Trim(s: string): string
  {
    TrimEnd(TrimStart(s))
  }

  predicate AllSpace(s: string)
  {
    forall i :: 0 <= i < |s| ==> IsSpace(s[i])
  }

  lemma TrimStartEmptyIff(s: string)
    ensures TrimStart(s) == [] <==> AllSpace(s)
  {
  }

  /** Trimming yields the empty string exactly for all-whitespace input. */
  lemma TrimEmptyIff(s: string)
    ensures Trim(s) == [] <==> AllSpace(s)
  {
    TrimStartEmptyIff(s);
  }

  function DigitChar(d: nat): (c: char)
    requires d < 10
    ensures IsDigit(c) && c as int - '0' as int == d
  {
    ('0' as int + d) as char
  }

  /** The decimal text of a natural number, as `${n}` renders it. */
  function NatToString(n: nat): (r: string)
    ensures |r| > 0
    ensures forall i :: 0 <= i < |r| ==> IsDigit(r[i])
    decreases n
  {
    if n < 10 then [DigitChar(n)] else NatToString(n / 10) + [DigitChar(n % 10)]
  }

  /** The value of a string of decimal digits. */
  function DecimalValue(s: string): nat
    requires forall i :: 0 <= i < |s| ==> IsDigit(s[i])
  {
    if s == [] then 0
    else
      assert IsDigit(s[|s| - 1]);
      10 * DecimalValue(s[..|s| - 1]) + (s[|s| - 1] as int - '0' as int)
  }

  lemma {:induction false} NatToStringRoundTrip(n: nat)
    ensures DecimalValue(NatToString(n)) == n
    decreases n
  {
    if n >= 10 {
      NatToStringRoundTrip(n / 10);
      var s := NatToString(n);
      assert s[..|s| - 1] == NatToString(n / 10);
    }
  }

  /** Distinct numbers render to distinct texts. */
  lemma NatToStringInjective(m: nat, n: nat)
    requires NatToString(m) == NatToString(n)
    ensures m == n
  {
    NatToStringRoundTrip(m);
    NatToStringRoundTrip(n);
  }
}

=== FILE: tool_bar.dfy ===
/**
  The toolbar's stroke-width stepper and colour swatches: minus and plus
  step by three inside [2, 30], the preview dot grows with the width up to
  24, a swatch is selected on exact equality, and white is recognised in
  any letter case.
 */
module ToolBar {
  import opened Text
  import opened HexColor

  const MinWidth: int := 2
  const MaxWidth: int := 30
  const WidthStep: int := 3

  /** The minus button: `Math.max(2, w - 3)`. */
  function Minus(w: int): (r: int)
    ensures r >= MinWidth
    ensures w - WidthStep <= r
    ensures w >= MinWidth ==> r <= w
    ensures w - WidthStep >= MinWidth ==> r == w - WidthStep
    ensures w - WidthStep < MinWidth ==> r == MinWidth
  {
    if w - WidthStep > MinWidth then w - WidthStep else MinWidth
  }

  /** The plus button: `Math.min(30, w + 3)`. */
  function Plus(w: int): (r: int)
    ensures r <= MaxWidth
    ensures r <= w + WidthStep
    ensures w <= MaxWidth ==> r >= w
    ensures w + WidthStep <= MaxWidth ==> r == w + WidthStep
    ensures w + WidthStep > MaxWidth ==> r == MaxWidth
  {
    if w + WidthStep < MaxWidth then w + WidthStep else MaxWidth
  }

  datatype Press = MinusPress | PlusPress

  function PressAll(w: int, ps: seq<Press>): int
    decreases |ps|
  {
    if ps == [] then w
    else PressAll(if ps[0].MinusPress? then Minus(w) else Plus(w), ps[1..])
  }

  /** However the buttons are pressed, a width in range stays in range. */
  lemma {:induction false} PressesStayInRange(w: int, ps: seq<Press>)
    requires MinWidth <= w <= MaxWidth
    ensures MinWidth <= PressAll(w, ps) <= MaxWidth
    decreases |ps|
  {
    if ps != [] {
      PressesStayInRange(if ps[0].MinusPress? then Minus(w) else Plus(w), ps[1..]);
    }
  }

  /** Minus undoes plus away from the limits. */
  lemma PlusThenMinus(w: int)
    requires MinWidth + WidthStep <= w + WidthStep <= MaxWidth
    ensures Minus(Plus(w)) == w
  {
  }

  /** The preview dot's diameter: `Math.min(w * 1.5, 24)`. */
  function PreviewDot(w: int): (d: real)
    ensures d <= 24.0
    ensures w <= 16 ==> d == w as real * 1.5
    ensures w >= 16 ==> d == 24.0
  {
    if w as real * 1.5 < 24.0 then w as real * 1.5 else 24.0
  }

  /** A wider stroke never shows a smaller dot. */
  lemma PreviewDotMonotone(v: int, w: int)
    requires v <= w
    ensures PreviewDot(v) <= PreviewDot(w)
  {
  }

  /** The swatch is highlighted when the selection is exactly its string. */
  predicate IsSelected(selected: string, swatch: string)
  {
    selected == swatch
  }

  /** With distinct swatches, at most one is highlighted. */
  lemma AtMostOneSelected(palette: seq<string>, selected: string, i: nat, j: nat)
    requires forall a, b :: 0 <= a < b < |palette| ==> palette[a] != palette[b]
    requires i < |palette| && j < |palette|
    requires IsSelected(selected, palette[i]) && IsSelected(selected, palette[j])
    ensures i == j
  {
  }

  /** White detection: `color.toLowerCase() === '#ffffff'`. */
  predicate IsWhite(color: string)
  {
    Lower(color) == "#ffffff"
  }

  /** White is `#` then six `f`s, each in either case. */
  lemma IsWhiteIff(color: string)
    ensures IsWhite(color) <==>
            |color| == 7 && color[0] == '#' && forall i :: 1 <= i < 7 ==> color[i] == 'f' || color[i] == 'F'
  {
    if |color| == 7 && color[0] == '#' && forall i :: 1 <= i < 7 ==> color[i] == 'f' || color[i] == 'F' {
      assert Lower(color) == "#ffffff";
    }
    if IsWhite(color) {
      var l := Lower(color);
      forall i | 1 <= i < 7
        ensures color[i] == 'f' || color[i] == 'F'
      {
        assert l[i] == 'f';
      }
    }
  }

  /** The custom-colour button's plus icon is black on white, else white. */
  function PlusIconColor(selected: string): (c: string)
    ensures c == "black" <==> IsWhite(selected)
    ensures c == "white" <==> !IsWhite(selected)
  {
    if IsWhite(selected) then "black" else "white"
  }

  /** The palette's white swatch. */
  const WhiteSwatch := "#FFFFFF"

  /**
    Selection is case-sensitive but white detection is not: with `#ffffff`
    selected the icon turns black while the white swatch stays unhighlighted.
   */
  lemma LowercaseWhiteNotSelected()
    ensures IsWhite("#ffffff") && !IsSelected("#ffffff", WhiteSwatch)
  {
    IsWhiteIff("#ffffff");
  }

  /** Typing `ffffff` into the hex field applies the white swatch's exact string. */
  lemma HexFieldSelectsWhiteSwatch()
    ensures HexColor.EditHex("ffffff").selected.Some?
    ensures IsSelected(HexColor.EditHex("ffffff").selected.value, WhiteSwatch)
  {
    assert Upper("ffffff") == "FFFFFF";
    assert NormalizeHexText("ffffff") == WhiteSwatch;
    assert HexColor.AllHex(WhiteSwatch[1..]);
  }
}
